=== FILE: README.md ===
# Engine interface configuration (smc-python `smc/core/interfaces.py`)

This project is a Dafny model of the part of the SMC Python client that
edits a firewall engine's physical interfaces. It covers the following:

- **Identifiers.** A VLAN is named `"<interface>.<tag>"` and an inline pair
  `"<left>-<right>"`. The code takes these apart with Python's `str.split`,
  which is modelled in the `Ids` module together with `str.join`.
- **Fragments.** An interface owns sub-interfaces and VLANs, and each VLAN
  owns sub-interfaces of its own. A sub-interface carries the six exclusive
  role flags (`primary_mgt`, `backup_mgt`, `primary_heartbeat`,
  `backup_heartbeat`, `outgoing`, `auth_request`). Each flag is `None`,
  `True` or `False`.
- **`PhysicalVlanInterface.create`, `vlan_id` and `VlanCollection.get_vlan`**
  (module `Vlans`).
- **`InterfaceModifier`** (module `Modifier`). This is the engine's list of
  interfaces held in memory. It covers id resolution (`get`), the role
  lookup (`find_mgmt_interface`) and moving an exclusive role
  (`set_unset`).
- **`InterfaceBuilder`** (module `Builder`). It builds the draft body of one
  interface through the `add_*_only`, `add_*_to_vlan` and `remove_vlan`
  calls and `getBuilder`. The module also covers the two callers that
  assemble a draft: `add_layer3_interface` and `add_layer3_vlan_interface`.
- **The in-place changes** (module `Changes`): `change_single_interface`,
  `change_interface_id`, `change_vlan_id` and
  `PhysicalInterface.remove_vlan`.

Every operation is a pure function on immutable values. An operation that
can raise returns a `Result`, whose error values are `InterfaceNotFound`,
`ModificationAborted`, `NoInterface` and `NoVlanList`. `NoInterface` stands
for the attribute error raised when an address is looked up on an interface
that is `None`. `NoVlanList` stands for the attribute error raised when a
builder loaded from a VLAN, which has no `vlanInterfaces`, is asked to add a
VLAN. A sub-interface's own `change_interface_id` and `change_vlan_id`
come from `smc/core/sub_interfaces.py`, which is not part of this model.
Their place is taken by a function parameter (`Changes.Relabel`). Zones are
kept as opaque strings: `zone_helper` is taken to be the identity.

## Model

| member | source | states |
|---|---|---|
| `Ids.Split` | smc/core/interfaces.py:2252-2254 | `str.split`: there is always at least one part, no part contains the separator, and joining the parts with the separator gives back the string |
| `Ids.SplitJoin` | smc/core/interfaces.py:2027-2037 | splitting the join of separator-free parts gives back the parts, so the tags `vlan_id` joins with `-` split back into the same tags |
| `Ids.CompositeParts` | smc/core/interfaces.py:2252-2258 | a composite id `"<x>.<y>"`, with neither half containing a dot, splits into exactly `[x, y]`: `x` is the first part and `y` the last |
| `Vlans.CreateVlan` | smc/core/interfaces.py:1977-2007 | the VLAN created for interface `i` and tag `t` is named `"<i>.<t>"`, so `i`'s first component is in front of its first dot and `t` after its last dot when `t` is dot-free. It stores the zone, comment, virtual mapping and virtual resource name as given, and holds the given sub-interface, or none |
| `Vlans.VlanIdParts` | smc/core/interfaces.py:2016-2037 | `vlan_id` never contains a dot. Its part before the first `-` is the tag after the VLAN name's last dot (when that tag has no `-`). Unless the first sub-interface is a plain inline interface, it is exactly that tag |
| `Vlans.CreateVlanRoundTrip` | smc/core/interfaces.py:2016-2037 | reading `vlan_id` back from a created VLAN gives the tag it was created with, unless it holds a plain inline sub-interface |
| `Changes.InlinePairTags` | smc/core/interfaces.py:2016-2037 | an inline VLAN `"<a>.<t>"` whose pair is `"<a>.<t>-<b>.<u>"`, with `u` different from `t`, reports `vlan_id` `"<t>-<u>"` |
| `Changes.InlineSameTag` | smc/core/interfaces.py:2027-2037 | an inline VLAN `"<a>.<t>"` whose pair is `"<a>.<t>-<b>.<t>"`, with the same tag on both halves, reports just `"<t>"` |
| `Changes.InlineSameTagExample` | smc/core/interfaces.py:2027-2037 | the VLAN `"1.10"` holding the inline pair `"1.10-2.10"` reports `vlan_id` `"10"` |
| `Vlans.GetVlan` | smc/core/interfaces.py:2135-2166 | returns the first VLAN whose `vlan_id` equals the argument. It raises InterfaceNotFound exactly when no VLAN matches |
| `Modifier.Get` | smc/core/interfaces.py:2235-2268 | returns a whole interface only if its id is the given id, or if a plain id names one half of one of its inline pairs. A VLAN is returned only for a dotted id: the parent is named by the part before the first dot and the tag is the part after the last dot. When no interface stops the scan, it raises InterfaceNotFound |
| `Modifier.GetFirstStop` | smc/core/interfaces.py:2245-2266 | the answer comes from the first interface where the scan stops, and later interfaces are never looked at. A missing VLAN there raises at once |
| `Modifier.GetById` | smc/core/interfaces.py:2245-2248 | an interface whose id equals the argument is returned whole, provided no earlier interface stops the scan |
| `Modifier.GetComposite` | smc/core/interfaces.py:2249-2256 | `"X.Y"` resolves to the first VLAN of interface X whose tag is Y. If X has VLANs but none with tag Y, it raises InterfaceNotFound |
| `Modifier.FindMgmtInterface` | smc/core/interfaces.py:2283-2301 | returns None exactly when no sub-interface anywhere holds the role; otherwise the answer is some interface's own answer |
| `Modifier.FindMgmtFirst` | smc/core/interfaces.py:2293-2301 | the answer is the first interface holding the role. Within that interface, a VLAN holder answers with the VLAN's id before the interface's own sub-interfaces are considered |
| `Modifier.SetUnset` | smc/core/interfaces.py:2303-2339 | error cases: an unknown target raises InterfaceNotFound. An address with no target raises an attribute error. An address whose sub-interface has no network raises InterfaceNotFound. Without an address, the call succeeds exactly when the target resolves, and it keeps the interface list's length |
| `Modifier.SetUnsetRule` | smc/core/interfaces.py:2325-2339 | for every sub-interface on an interface or a VLAN, only the role flag may change, and nothing else about any interface or VLAN changes. Inline sub-interfaces and `None` flags are left alone. A flag on another nicid becomes False. A flag on the target nicid becomes True, or, when an address is given, True exactly when the sub-interface is on the address's network |
| `Modifier.SetUnsetExclusive` | smc/core/interfaces.py:2325-2339 | afterwards, every holder of the role is on the target's nicid or is an untouched inline sub-interface. With an address, every non-inline holder, on an interface or in a VLAN, is also on the address's network |
| `Modifier.SetUnsetNoneClears` | smc/core/interfaces.py:2313-2339 | `set_unset(None, role)` succeeds and leaves the role held only by inline sub-interfaces, provided no nicid is the text `"None"` |
| `Modifier.SetUnsetIdempotent` | smc/core/interfaces.py:2303-2339 | repeating a successful `set_unset` with the same arguments gives the same interfaces |
| `Builder.AddVlanOnly` | smc/core/interfaces.py:2421-2435 | appends exactly one address-less VLAN named `"<id>.<vlan>"`, which reads back its tag, zone, comment and virtual mapping. Nothing else changes |
| `Builder.AddVlanOnlyRemoved` | smc/core/interfaces.py:2421-2435 | `remove_vlan` of the same tag after `add_vlan_only` gives the same draft as `remove_vlan` alone: the added VLAN is the one the name filter drops |
| `Builder.AddVlanOnlyFound` | smc/core/interfaces.py:2421-2435 | after `add_vlan_only`, a lookup by the name `"<id>.<vlan>"` (as `add_ndi_to_vlan` does) finds a VLAN, at the latest the one just appended |
| `Builder.AddCviOnly` | smc/core/interfaces.py:2437-2450 | appends one cluster virtual interface with the draft's id, address and network. With is_mgmt it has `auth_request` True and no other role; without it, no role |
| `Builder.AddSniOnly` | smc/core/interfaces.py:2452-2467 | appends one single node interface. With is_mgmt, `auth_request`, `outgoing` and `primary_mgt` are True and the other roles are as passed; without it, the roles are exactly as passed |
| `Builder.AddNdiOnly` | smc/core/interfaces.py:2469-2484 | appends one node interface for the node. With is_mgmt, `primary_mgt`, `outgoing` and `primary_heartbeat` are True and the other roles are as passed; without it, the roles are exactly as passed |
| `Builder.AddNdiToVlan` | smc/core/interfaces.py:2600-2641 | if a VLAN `"<id>.<vlan>"` exists, the node interface is appended to the first one and no VLAN is added. Otherwise exactly one VLAN of that name is appended, holding only the new node interface, with the given zone and comment and no virtual mapping or resource name |
| `Builder.AddSniToVlan` | smc/core/interfaces.py:2589-2598 | the same as `add_ndi_to_vlan`, with a single node interface |
| `Builder.AddCviToVlan` | smc/core/interfaces.py:2643-2665 | always appends exactly one VLAN `"<id>.<vlan>"`, holding only the new cluster virtual interface, with the given zone and comment and no virtual mapping or resource name |
| `Builder.CviToVlanDuplicates` | smc/core/interfaces.py:2643-2665 | on a draft that already has the VLAN, `add_cvi_to_vlan` leaves two VLANs with the same name |
| `Builder.RemoveVlan` | smc/core/interfaces.py:2667-2677 | a VLAN survives exactly when it was there and is not named `"<id>.<vlan>"`. An absent VLAN leaves the draft unchanged |
| `Builder.RemoveVlanKeepsOrder` | smc/core/interfaces.py:2671-2677 | the surviving VLANs keep their relative order: the filter distributes over any split of the VLAN list |
| `Builder.RemoveVlanTwice` | smc/core/interfaces.py:2667-2677 | removing the same VLAN twice is the same as removing it once |
| `Builder.GetBuilder` | smc/core/interfaces.py:2684-2705 | the returned reference is None exactly when `get` raises, and the draft is then fresh with the requested id. Otherwise the reference is what `get` found and the draft starts from its data; a draft loaded from a VLAN has no VLAN list of its own |
| `Builder.GetBuilderExisting` | smc/core/interfaces.py:2692-2703 | an existing interface is edited in place: the draft is that interface's own current body |
| `Builder.AddLayer3Interface` | smc/core/interfaces.py:1072-1107 | appends a single node interface on a single firewall and a node interface on any other engine, on the draft's id with the given address and network. A truthy zone replaces the draft's zone and the comment is always set. Nothing else in the draft changes |
| `Builder.AddLayer3VlanInterface` | smc/core/interfaces.py:1410-1455 | raises exactly when the builder was loaded from a VLAN, which has no VLAN list. Otherwise, without an address, it adds an address-less VLAN; with one, it adds the address through the to-VLAN rule, using a single node or node interface according to the engine |
| `Builder.Layer3VlanOnFreshInterface` | smc/core/interfaces.py:1410-1455 | `add_layer3_vlan_interface(3, 100, "1.1.1.1", ...)` on an engine without interface 3 gives a draft `"3"` with one VLAN `"3.100"` holding one sub-interface with that address |
| `Builder.Layer3VlanOnVlan` | smc/core/interfaces.py:1436-1452 | `add_layer3_vlan_interface("1.100", 5, ...)` on an engine whose interface 1 has VLAN 100 loads the builder from that VLAN and raises |
| `Changes.Readdress` | smc/core/interfaces.py:580-584 | every sub-interface not on the address gets the address and the network, and the others are left alone. A change is reported exactly when some sub-interface was off the address, which is exactly when the list changed |
| `Changes.ChangeSingleInterface` | smc/core/interfaces.py:531-594 | raises ModificationAborted exactly when the interface has VLANs and no vlan id is given. An unknown vlan id raises InterfaceNotFound. Otherwise the target (the VLAN, or the interface) gets the zone if one is given and keeps its own otherwise; its sub-interfaces not on the address get the address and the network, and the others are left alone. Nothing else changes, and the call reports a change exactly when the interface changed |
| `Changes.ChangeSingleInterfaceNoChange` | smc/core/interfaces.py:563-594 | when the target is already in the requested zone (or none is requested) and all its sub-interfaces are on the address, the interface comes back as it was and no change is reported |
| `Changes.ChangeSingleInterfaceTwice` | smc/core/interfaces.py:554-594 | repeating a successful change returns the same interface and reports that nothing changed |
| `Changes.ChangeSingleInterfaceAsWritten` | smc/core/interfaces.py:554-578 | as written: raises ModificationAborted exactly when the interface has VLANs and no vlan id is given, and fails when the vlan id is unknown. The VLAN's sub-interfaces are readdressed as in the corrected version. When the parent interface already has the requested zone, the target VLAN keeps its old zone, because the zone compared is the parent's |
| `Changes.ChangeSingleInterfaceAsWrittenAgrees` | smc/core/interfaces.py:554-594 | when no VLAN is named, or the named VLAN's zone is the parent's, the code as written and the corrected version give the same result |
| `Changes.ParentZoneCompared` | smc/core/interfaces.py:571-578 | on an interface in zone Z whose VLAN 5 is in no zone, asking for VLAN 5 in zone Z changes nothing and reports no change (as written). Comparing the VLAN's own zone moves the VLAN |
| `Changes.ChangeReportedWithoutChange` | smc/core/interfaces.py:571-578 | on an interface in zone A whose VLAN 5 is already in zone Z, asking for VLAN 5 in zone Z returns the interface unchanged but reports a change (as written). The corrected version reports none |
| `Changes.ChangeInterfaceId` | smc/core/interfaces.py:776-823 | the interface takes the part of the new id before the first `-`. Every VLAN is renamed under it with its tag kept. Non-inline top-level sub-interfaces take that id as nicid. Every other sub-interface is relabelled by its own `change_interface_id`, given the whole new id when it is inline and the first part otherwise. Only nicids and ids change, on the interface's own sub-interfaces and on every VLAN's |
| `Changes.ChangeInterfaceIdRoundTrip` | smc/core/interfaces.py:798-822 | changing the id and changing it back restores the interface id and every VLAN id |
| `Changes.ChangeInterfaceIdFound` | smc/core/interfaces.py:822 | after the change, `get` finds the interface under its new id |
| `Changes.ChangeVlanId` | smc/core/interfaces.py:1666-1710 | raises InterfaceNotFound exactly when `get_vlan(original)` does. Otherwise only the first VLAN reporting `original` changes; it keeps its interface part and takes the new value's first part as tag. Each of its sub-interfaces is relabelled by its own `change_vlan_id`, given the whole new value when it is inline and the first part otherwise |
| `Changes.ChangeVlanIdFindsNew` | smc/core/interfaces.py:1701-1709 | after retagging a plain VLAN to a single tag, `get_vlan` finds that tag |
| `Changes.ChangeVlanIdRoundTrip` | smc/core/interfaces.py:1701-1709 | retagging a plain VLAN from a to b and back again restores its name and leaves every other VLAN as it was |
| `Changes.RemoveVlanAsWritten` | smc/core/interfaces.py:1712-1747 | as written: raises InterfaceNotFound exactly when `get_vlan` does; otherwise it filters VLANs by the name `"<id>.<vlan_id>"` |
| `Changes.RemoveInlinePairVlanAsWritten` | smc/core/interfaces.py:1739-1741 | for an inline VLAN reporting `"10-11"`, `remove_vlan("10-11")` returns the interface unchanged, and `get_vlan("10-11")` still finds the VLAN |
| `Changes.RemoveVlan` | smc/core/interfaces.py:1712-1747 | raises InterfaceNotFound exactly when `get_vlan` does. Otherwise exactly the VLANs reporting the tag are removed, at least one VLAN goes, and `get_vlan` no longer finds the tag |
| `Changes.RemoveInlinePairVlan` | smc/core/interfaces.py:1739-1741 | the corrected removal deletes the inline VLAN that the code as written keeps |
| `Changes.RemoveVlanAgrees` | smc/core/interfaces.py:1739-1741 | where every VLAN's tag matches its name, the corrected removal and the builder's name filter give the same result |
| `Changes.RemoveVlanTwice` | smc/core/interfaces.py:1712-1739 | a second `remove_vlan` of the same tag raises InterfaceNotFound |

## Left out

- Sending the draft (`dispatch`, `update`, `create`, ETags, the engine cache) is left out. So is deleting the routes of a removed VLAN or a changed network: each operation returns the body it would send.
- `zone_helper` and `logical_intf_helper` call the server and are left out. Zones are opaque strings compared as given.
- `smc/core/sub_interfaces.py` is not part of this model. A created sub-interface carries exactly the role keywords it was given. A sub-interface's own `change_interface_id`/`change_vlan_id` is the parameter `Changes.Relabel`.
- `add_capture`, `add_inline`, `add_l2_inline` and `add_dhcp` are left out. Each builds its sub-interface with a constructor from `smc/core/sub_interfaces.py` (`CaptureInterface.create`, `InlineInterface.create`, `SingleNodeInterface.create_dhcp`), which is not part of this model. `add_l2_inline` also creates a VLAN with `PhysicalVlanInterface.create` and tags the inline pair with `_add_vlan_to_inline`, which is not modelled. `add_dhcp` under is_mgmt sets `primary_mgt` together with the `reverse_connection` and `automatic_default_route` flags, which the fragments here do not carry.
- `set_auth_request` is left out. It is a second role-moving routine, separate from `set_unset`. It does nothing on master, layer 2 and IPS engines. On a cluster it requires the target to have a cluster virtual interface and sets the flag only on those. On other engines it sets `auth_request` on every sub-interface of the target whose flag is not None, or only on the one with the given address. It clears the current holder found through the engine's `interface_options`, which reads server state outside this model.
- The `InterfaceOptions` setters and the deprecated `add_*` wrappers are left out. They forward to `set_unset` and `add_layer3_*`.
- `change_cluster_interface` and `reset_interface` are left out.
- `smc/administration/certificates.py` is left out.
- `Builder.Seed`: a builder loaded from a VLAN also keeps that VLAN's `virtual_mapping` and `virtual_resource_name` and sends them back; the draft here has no place for them, so they are dropped.
- `Builder.GetBuilder`: `InterfaceBuilder(**interface.data)` does not copy the found interface's `interfaces` list, so later `add_*` calls also change the returned reference in place. The model returns the reference as it was found; nothing modelled here reads it afterwards.
- A tunnel interface's fresh draft, which has no `vlanInterfaces` key, is left out: a fresh draft has a VLAN list. A draft loaded from a VLAN is modelled: `Builder.AddLayer3VlanInterface` raises on it.
- A numeric `vlan_id` is modelled as its `str()` text, so the falsy integer `0` is not distinguished from a non-empty tag.
- `Builder.AddLayer3Interface`: a `nodeid` passed among the keywords is not modelled. On a single firewall no node id is set; on any other engine it is always 1. The roles it states for is_mgmt are the ones common to both sub-interface kinds; the full role contracts are on `AddSniOnly` and `AddNdiOnly`.
- `Builder.AddLayer3VlanInterface`: the network is a string. A missing network value together with an address is not modelled.
- `Changes.RemoveVlanAsWritten`: the builder is assumed to find the same interface that `remove_vlan` is called on (`Builder.GetBuilderExisting` shows when it does).
- `Modifier.SetUnsetExclusive`: the code does not promise that only ONE sub-interface holds the role afterwards. Several sub-interfaces on the target's nicid (and network) all become True, and an inline sub-interface is never cleared.
- In three places the code does not do what one would expect from its documentation, and the model follows the code in each:
  - `add_cvi_to_vlan` and `add_vlan_only` always append a new VLAN. Unlike `add_ndi_to_vlan`, they do not reuse an existing one.
  - `PhysicalInterface.remove_vlan` of an absent VLAN raises InterfaceNotFound. Its docstring calls this a no-op.
  - `set_unset` with no interface compares nicids with the text `"None"`.

## Findings

| source | as written | input that shows it | evidently intended | confidence | as-written member | corrected member |
|---|---|---|---|---|---|---|
| smc/core/interfaces.py:1739-1741 | `remove_vlan` checks the VLAN with `get_vlan(vlan_id)`, which matches `vlan_id`, but the builder drops VLANs named `"<id>.<vlan_id>"` | interface `"1"` whose VLAN `"1.10"` holds an inline pair `"1.10-2.11"`, so it reports `vlan_id` `"10-11"`; `remove_vlan("10-11")` keeps the VLAN | the VLAN that `get_vlan` found is removed | not executed | `Changes.RemoveVlanAsWritten` | `Changes.RemoveVlan` |
| smc/core/interfaces.py:571-578 | for a VLAN, the requested zone is compared with the parent interface's `zone_ref` | parent in zone `"Z"`, VLAN 5 in no zone, `change_single_interface(..., zone_ref="Z", vlan_id=5)`: the VLAN is not moved and the call reports no change. Conversely, parent in zone `"A"` and VLAN 5 already in `"Z"`: a change is reported although nothing changed | the VLAN's own zone is compared and set | not executed | `Changes.ChangeSingleInterfaceAsWritten` | `Changes.ChangeSingleInterface` |

=== FILE: builder.dfy ===
/** InterfaceBuilder: the draft body of one top-level interface, built up by
    successive add_* calls (and remove_vlan) before a single create or
    update is sent. The draft is an Interface value; every operation returns
    the new draft. */
module Builder {
  import opened Wrappers
  import opened Ids
  import opened Fragments
  import opened Vlans
  import opened Modifier

  /** A fresh builder for a physical interface: no sub-interfaces, no VLANs,
      no zone. */
  function NewDraft(interfaceId: string): Interface
  {
    Interface(interfaceId, [], [], None, None)
  }

  /** The roles each add_*_only forces to True when asked for a management
      interface. */
  const SniMgmtRoles: set<Role> := {AuthRequest, Outgoing, PrimaryMgt}
  const NdiMgmtRoles: set<Role> := {PrimaryMgt, Outgoing, PrimaryHeartbeat}
  const CviMgmtRoles: set<Role> := {AuthRequest}

  /** `r` is `d` with one more sub-interface at the end of its own list;
      nothing else differs. */
  predicate AppendsSub(d: Interface, r: Interface)
  {
    && |r.interfaces| == |d.interfaces| + 1
    && r.interfaces[..|d.interfaces|] == d.interfaces
    && r.interfaceId == d.interfaceId && r.vlans == d.vlans
    && r.zoneRef == d.zoneRef && r.comment == d.comment
  }

  /** The sub-interface an add_*_only call appended. */
  function Added(r: Interface): SubInterface
    requires |r.interfaces| > 0
  {
    r.interfaces[|r.interfaces| - 1]
  }

  /** add_cvi_only: appends a cluster virtual interface on the draft's own
      id; with is_mgmt it carries auth_request=True and no other role. */
  function AddCviOnly(d: Interface, address: string, network: string, isMgmt: bool): (r: Interface)
    ensures AppendsSub(d, r)
    ensures Added(r).kind == ClusterVirtual && Added(r).nicid == d.interfaceId
    ensures Added(r).address == Some(address) && Added(r).network == Some(network)
    ensures isMgmt ==> Added(r).roles.Get(AuthRequest) == Some(true)
    ensures isMgmt ==> forall q :: q != AuthRequest ==> Added(r).roles.Get(q).None?
    ensures !isMgmt ==> Added(r).roles == NoRoles
  {
    var roles := if isMgmt then NoRoles.Stamp(CviMgmtRoles) else NoRoles;
    d.(interfaces := d.interfaces + [SubInterface(ClusterVirtual, d.interfaceId, Some(address), Some(network), None, roles)])
  }

  /** add_sni_only: appends a single node interface carrying the caller's
      role keywords; with is_mgmt, auth_request, outgoing and primary_mgt
      are forced to True and the other roles keep the caller's value. */
  function AddSniOnly(d: Interface, address: string, network: string, isMgmt: bool, kw: Roles): (r: Interface)
    ensures AppendsSub(d, r)
    ensures Added(r).kind == SingleNode && Added(r).nicid == d.interfaceId
    ensures Added(r).address == Some(address) && Added(r).network == Some(network)
    ensures isMgmt ==>
      && Added(r).roles.Get(AuthRequest) == Some(true)
      && Added(r).roles.Get(Outgoing) == Some(true)
      && Added(r).roles.Get(PrimaryMgt) == Some(true)
      && Added(r).roles.Get(BackupMgt) == kw.Get(BackupMgt)
      && Added(r).roles.Get(PrimaryHeartbeat) == kw.Get(PrimaryHeartbeat)
      && Added(r).roles.Get(BackupHeartbeat) == kw.Get(BackupHeartbeat)
    ensures !isMgmt ==> Added(r).roles == kw
  {
    var roles := if isMgmt then kw.Stamp(SniMgmtRoles) else kw;
    d.(interfaces := d.interfaces + [SubInterface(SingleNode, d.interfaceId, Some(address), Some(network), None, roles)])
  }

  /** add_ndi_only: appends a node dedicated interface for the given node;
      with is_mgmt, primary_mgt, outgoing and primary_heartbeat are forced to
      True and the other roles keep the caller's value. */
  function AddNdiOnly(d: Interface, address: string, network: string, nodeid: int, isMgmt: bool, kw: Roles): (r: Interface)
    ensures AppendsSub(d, r)
    ensures Added(r).kind == Node && Added(r).nicid == d.interfaceId && Added(r).nodeid == Some(nodeid)
    ensures Added(r).address == Some(address) && Added(r).network == Some(network)
    ensures isMgmt ==>
      && Added(r).roles.Get(PrimaryMgt) == Some(true)
      && Added(r).roles.Get(Outgoing) == Some(true)
      && Added(r).roles.Get(PrimaryHeartbeat) == Some(true)
      && Added(r).roles.Get(AuthRequest) == kw.Get(AuthRequest)
      && Added(r).roles.Get(BackupMgt) == kw.Get(BackupMgt)
      && Added(r).roles.Get(BackupHeartbeat) == kw.Get(BackupHeartbeat)
    ensures !isMgmt ==> Added(r).roles == kw
  {
    var roles := if isMgmt then kw.Stamp(NdiMgmtRoles) else kw;
    d.(interfaces := d.interfaces + [SubInterface(Node, d.interfaceId, Some(address), Some(network), Some(nodeid), roles)])
  }

  /** `r` is `d` with the VLAN list replaced; the body is unchanged. */
  predicate SameBody(d: Interface, r: Interface)
  {
    r.interfaceId == d.interfaceId && r.interfaces == d.interfaces
    && r.zoneRef == d.zoneRef && r.comment == d.comment
  }

  /** add_vlan_only: appends an address-less VLAN "<id>.<vlan>"; it does not
      look for an existing VLAN of that name. */
  function AddVlanOnly(
    d: Interface, vlanId: string, virtualMapping: Option<int>, virtualResourceName: Option<string>,
    zoneRef: Option<string>, comment: Option<string>): (r: Interface)
    ensures SameBody(d, r)
    ensures |r.vlans| == |d.vlans| + 1 && r.vlans[..|d.vlans|] == d.vlans
    ensures var v := r.vlans[|d.vlans|];
      && v.interfaceId == Composite(d.interfaceId, vlanId)
      && v.interfaces == []
      && First(v.interfaceId, VlanSep) == First(d.interfaceId, VlanSep)
      && (VlanSep !in vlanId ==> VlanId(v) == vlanId)
      && v.zoneRef == zoneRef && v.comment == comment
      && v.virtualMapping == virtualMapping && v.virtualResourceName == virtualResourceName
  {
    var v := CreateVlan(d.interfaceId, vlanId, virtualMapping, virtualResourceName, zoneRef, comment, None);
    assert VlanSep !in vlanId ==> VlanId(v) == vlanId by {
      if VlanSep !in vlanId {
        CreateVlanRoundTrip(d.interfaceId, vlanId, virtualMapping, virtualResourceName, zoneRef, comment, None);
      }
    }
    d.(vlans := d.vlans + [v])
  }

  /** The index of the first VLAN with the given name. */
  function FindVlan(vlans: seq<Vlan>, name: string): (r: Option<nat>)
    ensures r.Some? ==>
      && r.value < |vlans|
      && vlans[r.value].interfaceId == name
      && forall m :: 0 <= m < r.value ==> vlans[m].interfaceId != name
    ensures r.None? <==> forall m :: 0 <= m < |vlans| ==> vlans[m].interfaceId != name
    decreases |vlans|
  {
    if |vlans| == 0 then None
    else if vlans[0].interfaceId == name then Some(0)
    else
      match FindVlan(vlans[1..], name)
      case Some(k) => Some(k + 1)
      case None => None
  }

  /** `r` adds `sub` to the first VLAN named `name` that `d` has: the list
      keeps its length, that VLAN gains `sub` at the end of its
      sub-interfaces, every other VLAN is unchanged. */
  predicate AddedToExisting(d: Interface, r: Interface, name: string, sub: SubInterface)
  {
    forall k :: (0 <= k < |d.vlans| && d.vlans[k].interfaceId == name
                 && (forall m :: 0 <= m < k ==> d.vlans[m].interfaceId != name)) ==>
      && |r.vlans| == |d.vlans|
      && r.vlans[k] == d.vlans[k].(interfaces := d.vlans[k].interfaces + [sub])
      && (forall m :: 0 <= m < |d.vlans| && m != k ==> r.vlans[m] == d.vlans[m])
  }

  /** When `d` has no VLAN named `name`, `r` appends exactly one VLAN of that
      name holding only `sub`, with the given zone and comment and no
      virtual mapping or resource name. */
  predicate AddedAsNew(d: Interface, r: Interface, name: string, sub: SubInterface,
                       zoneRef: Option<string>, comment: Option<string>)
  {
    (forall m :: 0 <= m < |d.vlans| ==> d.vlans[m].interfaceId != name) ==>
      && |r.vlans| == |d.vlans| + 1
      && r.vlans[..|d.vlans|] == d.vlans
      && r.vlans[|d.vlans|].interfaceId == name
      && r.vlans[|d.vlans|].interfaces == [sub]
      && r.vlans[|d.vlans|].zoneRef == zoneRef
      && r.vlans[|d.vlans|].comment == comment
      && r.vlans[|d.vlans|].virtualMapping.None?
      && r.vlans[|d.vlans|].virtualResourceName.None?
  }

  /** The body shared by add_ndi_to_vlan and add_sni_to_vlan. */
  function AddAddressToVlan(
    d: Interface, kind: Kind, address: string, network: string, vlanId: string, nodeid: int,
    zoneRef: Option<string>, comment: Option<string>, kw: Roles): (r: Interface)
    ensures SameBody(d, r)
    ensures var name := Composite(d.interfaceId, vlanId);
      var sub := SubInterface(kind, name, Some(address), Some(network), Some(nodeid), kw);
      && AddedToExisting(d, r, name, sub)
      && AddedAsNew(d, r, name, sub, zoneRef, comment)
  {
    var name := Composite(d.interfaceId, vlanId);
    var sub := SubInterface(kind, name, Some(address), Some(network), Some(nodeid), kw);
    match FindVlan(d.vlans, name)
    case Some(k) =>
      d.(vlans := d.vlans[k := d.vlans[k].(interfaces := d.vlans[k].interfaces + [sub])])
    case None =>
      d.(vlans := d.vlans + [CreateVlan(d.interfaceId, vlanId, None, None, zoneRef, comment, Some(sub))])
  }

  /** add_ndi_to_vlan: a node interface named "<id>.<vlan>" goes into the
      first VLAN of that name, or into a new VLAN when there is none (only
      then are the zone and comment used). */
  function AddNdiToVlan(
    d: Interface, address: string, network: string, vlanId: string, nodeid: int,
    zoneRef: Option<string>, comment: Option<string>, kw: Roles): (r: Interface)
    ensures SameBody(d, r)
    ensures var name := Composite(d.interfaceId, vlanId);
      var sub := SubInterface(Node, name, Some(address), Some(network), Some(nodeid), kw);
      && AddedToExisting(d, r, name, sub)
      && AddedAsNew(d, r, name, sub, zoneRef, comment)
  {
    AddAddressToVlan(d, Node, address, network, vlanId, nodeid, zoneRef, comment, kw)
  }

  /** add_sni_to_vlan: as add_ndi_to_vlan, with a single node interface. */
  function AddSniToVlan(
    d: Interface, address: string, network: string, vlanId: string, nodeid: int,
    zoneRef: Option<string>, comment: Option<string>, kw: Roles): (r: Interface)
    ensures SameBody(d, r)
    ensures var name := Composite(d.interfaceId, vlanId);
      var sub := SubInterface(SingleNode, name, Some(address), Some(network), Some(nodeid), kw);
      && AddedToExisting(d, r, name, sub)
      && AddedAsNew(d, r, name, sub, zoneRef, comment)
  {
    AddAddressToVlan(d, SingleNode, address, network, vlanId, nodeid, zoneRef, comment, kw)
  }

  /** add_cvi_to_vlan: always appends a new VLAN "<id>.<vlan>" holding one
      cluster virtual interface of that name, whether or not the draft
      already has such a VLAN. */
  function AddCviToVlan(
    d: Interface, address: string, network: string, vlanId: string,
    zoneRef: Option<string>, comment: Option<string>, kw: Roles): (r: Interface)
    ensures SameBody(d, r)
    ensures |r.vlans| == |d.vlans| + 1 && r.vlans[..|d.vlans|] == d.vlans
    ensures var v := r.vlans[|d.vlans|];
      && v.interfaceId == Composite(d.interfaceId, vlanId)
      && v.interfaces == [SubInterface(ClusterVirtual, v.interfaceId, Some(address), Some(network), None, kw)]
      && v.zoneRef == zoneRef && v.comment == comment
      && v.virtualMapping.None? && v.virtualResourceName.None?
  {
    var name := Composite(d.interfaceId, vlanId);
    var cvi := SubInterface(ClusterVirtual, name, Some(address), Some(network), None, kw);
    d.(vlans := d.vlans + [CreateVlan(d.interfaceId, vlanId, None, None, zoneRef, comment, Some(cvi))])
  }

  /** Unlike add_ndi_to_vlan, add_cvi_to_vlan on a draft that already has
      the VLAN leaves two VLANs of the same name. */
  lemma CviToVlanDuplicates(
    d: Interface, address: string, network: string, vlanId: string,
    zoneRef: Option<string>, comment: Option<string>, kw: Roles, k: nat)
    requires k < |d.vlans| && d.vlans[k].interfaceId == Composite(d.interfaceId, vlanId)
    ensures var r := AddCviToVlan(d, address, network, vlanId, zoneRef, comment, kw);
      && r.vlans[k].interfaceId == r.vlans[|d.vlans|].interfaceId
      && k != |d.vlans|
  {
    var r := AddCviToVlan(d, address, network, vlanId, zoneRef, comment, kw);
    assert r.vlans[k] == r.vlans[..|d.vlans|][k];
  }

  /** The VLANs whose name is not `name`, in their original order. */
  function Without(vlans: seq<Vlan>, name: string): (r: seq<Vlan>)
    ensures forall v :: v in r <==> v in vlans && v.interfaceId != name
    ensures |r| <= |vlans|
    ensures (forall m :: 0 <= m < |vlans| ==> vlans[m].interfaceId != name) ==> r == vlans
    decreases |vlans|
  {
    if |vlans| == 0 then []
    else
      var rest := Without(vlans[1..], name);
      assert forall v :: v in vlans <==> v == vlans[0] || v in vlans[1..];
      assert vlans == [vlans[0]] + vlans[1..];
      if vlans[0].interfaceId == name then rest else [vlans[0]] + rest
  }

  /** Filtering distributes over concatenation: the kept VLANs appear in
      their original relative order. */
  lemma {:induction false} WithoutConcat(a: seq<Vlan>, b: seq<Vlan>, name: string)
    ensures Without(a + b, name) == Without(a, name) + Without(b, name)
    decreases |a|
  {
    if |a| > 0 {
      assert (a + b)[1..] == a[1..] + b;
      assert (a + b)[0] == a[0];
      WithoutConcat(a[1..], b, name);
    } else {
      assert a + b == b;
    }
  }

  /** InterfaceBuilder.remove_vlan: drops every VLAN named "<id>.<vlan>" and
      keeps the rest in order; an absent VLAN leaves the draft as it was. */
  function RemoveVlan(d: Interface, vlanId: string): (r: Interface)
    ensures SameBody(d, r)
    ensures forall v :: v in r.vlans <==> v in d.vlans && v.interfaceId != Composite(d.interfaceId, vlanId)
    ensures (forall m :: 0 <= m < |d.vlans| ==> d.vlans[m].interfaceId != Composite(d.interfaceId, vlanId)) ==> r == d
  {
    d.(vlans := Without(d.vlans, Composite(d.interfaceId, vlanId)))
  }

  /** remove_vlan keeps the surviving VLANs in their original order: split
      the VLAN list anywhere and each part is filtered on its own. */
  lemma RemoveVlanKeepsOrder(d: Interface, vlanId: string, cut: nat)
    requires cut <= |d.vlans|
    ensures RemoveVlan(d, vlanId).vlans
         == RemoveVlan(d.(vlans := d.vlans[..cut]), vlanId).vlans
          + RemoveVlan(d.(vlans := d.vlans[cut..]), vlanId).vlans
  {
    assert d.vlans == d.vlans[..cut] + d.vlans[cut..];
    WithoutConcat(d.vlans[..cut], d.vlans[cut..], Composite(d.interfaceId, vlanId));
  }

  /** add_vlan_only followed by remove_vlan of the same tag is remove_vlan
      alone: the VLAN added is the one the name filter drops. */
  lemma AddVlanOnlyRemoved(
    d: Interface, vlanId: string, virtualMapping: Option<int>, virtualResourceName: Option<string>,
    zoneRef: Option<string>, comment: Option<string>)
    ensures RemoveVlan(AddVlanOnly(d, vlanId, virtualMapping, virtualResourceName, zoneRef, comment), vlanId)
         == RemoveVlan(d, vlanId)
  {
    var r := AddVlanOnly(d, vlanId, virtualMapping, virtualResourceName, zoneRef, comment);
    var name := Composite(d.interfaceId, vlanId);
    assert r.vlans == d.vlans + [r.vlans[|d.vlans|]];
    WithoutConcat(d.vlans, [r.vlans[|d.vlans|]], name);
  }

  /** After add_vlan_only the draft has a VLAN "<id>.<vlan>", found by name
      no later than the one just appended. */
  lemma AddVlanOnlyFound(
    d: Interface, vlanId: string, virtualMapping: Option<int>, virtualResourceName: Option<string>,
    zoneRef: Option<string>, comment: Option<string>)
    ensures var r := AddVlanOnly(d, vlanId, virtualMapping, virtualResourceName, zoneRef, comment);
      var found := FindVlan(r.vlans, Composite(d.interfaceId, vlanId));
      found.Some? && found.value <= |d.vlans|
  {
  }

  /** Removing the same VLAN twice is the same as removing it once. */
  lemma RemoveVlanTwice(d: Interface, vlanId: string)
    ensures RemoveVlan(RemoveVlan(d, vlanId), vlanId) == RemoveVlan(d, vlanId)
  {
    var r := RemoveVlan(d, vlanId);
    forall m | 0 <= m < |r.vlans| ensures r.vlans[m].interfaceId != Composite(r.interfaceId, vlanId) {
      assert r.vlans[m] in r.vlans;
    }
  }

  /** The draft InterfaceBuilder(**interface.data) starts from: the found
      interface's own body, or a found VLAN's. A VLAN's data has no
      `vlanInterfaces` key, so that draft has no VLAN list at all; it is
      given an empty one here, and the VLAN operations below refuse a
      draft loaded from a VLAN (see AddLayer3VlanInterface). */
  function Seed(t: Target): Interface
  {
    match t
    case Whole(itf) => itf
    case VlanView(_, v) => Interface(v.interfaceId, v.interfaces, [], v.zoneRef, v.comment)
  }

  /** InterfaceBuilder.getBuilder: looks the id up among the engine's
      interfaces; when found the draft starts from that interface (and the
      reference is returned, so that the draft is sent as an update),
      otherwise from a fresh draft with the given id (sent as a create). */
  function GetBuilder(intfs: seq<Interface>, id: string): (r: (Interface, Option<Target>))
    ensures r.1.None? <==> Get(intfs, id).Failure?
    ensures r.1.None? ==> r.0 == NewDraft(id)
    ensures r.1.Some? ==> r.1.value == Get(intfs, id).value && r.0 == Seed(r.1.value)
    ensures r.1.Some? && r.1.value.Whole? ==> r.0 in intfs
  {
    match Get(intfs, id)
    case Success(t) => (Seed(t), Some(t))
    case Failure(_) => (NewDraft(id), None)
  }

  /** An existing interface is edited in place: the draft is that
      interface's current body. */
  lemma GetBuilderExisting(intfs: seq<Interface>, id: string, k: nat)
    requires k < |intfs| && intfs[k].interfaceId == id
    requires forall j :: 0 <= j < k ==> !Stops(intfs[j], id)
    ensures GetBuilder(intfs, id) == (intfs[k], Some(Whole(intfs[k])))
  {
    GetById(intfs, id, k);
  }

  /** PhysicalInterface.add_layer3_interface (builder part): a single node
      interface on a single firewall, a node interface (node 1) on any other
      engine, appended to the existing or fresh draft; a truthy zone replaces
      the draft's zone and the comment is always set. */
  function AddLayer3Interface(
    intfs: seq<Interface>, engine: EngineType, id: string, address: string, network: string,
    zoneRef: Option<string>, isMgmt: bool, comment: Option<string>, kw: Roles)
    : (r: (Interface, Option<Target>))
    ensures var (seed, existing) := GetBuilder(intfs, id);
      && r.1 == existing
      && |r.0.interfaces| == |seed.interfaces| + 1
      && r.0.interfaces[..|seed.interfaces|] == seed.interfaces
      && r.0.vlans == seed.vlans
      && r.0.interfaceId == seed.interfaceId
      && r.0.zoneRef == (if Truthy(zoneRef) then zoneRef else seed.zoneRef)
      && r.0.comment == comment
    ensures Added(r.0).kind == (if engine == SingleFw then SingleNode else Node)
    ensures Added(r.0).nicid == r.0.interfaceId && Added(r.0).address == Some(address)
    ensures Added(r.0).network == Some(network)
    ensures isMgmt ==> Added(r.0).roles.Get(PrimaryMgt) == Some(true) && Added(r.0).roles.Get(Outgoing) == Some(true)
  {
    var (seed, existing) := GetBuilder(intfs, id);
    var zoned := if Truthy(zoneRef) then seed.(zoneRef := zoneRef) else seed;
    var added :=
      if engine == SingleFw then AddSniOnly(zoned, address, network, isMgmt, kw)
      else AddNdiOnly(zoned, address, network, 1, isMgmt, kw);
    (added.(comment := comment), existing)
  }

  /** The builder getBuilder returns for this reference was loaded from a
      VLAN, so it has no `vlanInterfaces` attribute. */
  predicate LoadedFromVlan(existing: Option<Target>)
  {
    existing.Some? && existing.value.VlanView?
  }

  /** PhysicalInterface.add_layer3_vlan_interface (builder part): without an
      address an address-less VLAN is appended; with one, a single node
      (single firewall) or node interface goes into the VLAN. A builder
      loaded from a VLAN has no VLAN list, and either step raises on it. */
  function AddLayer3VlanInterface(
    intfs: seq<Interface>, engine: EngineType, id: string, vlanId: string,
    address: Option<string>, network: string,
    virtualMapping: Option<int>, virtualResourceName: Option<string>,
    zoneRef: Option<string>, comment: Option<string>)
    : (r: Result<(Interface, Option<Target>), Error>)
    ensures r.Failure? <==> LoadedFromVlan(GetBuilder(intfs, id).1)
    ensures r.Failure? ==> r.error == NoVlanList
    ensures r.Success? ==>
      var (seed, existing) := GetBuilder(intfs, id);
      && r.value.1 == existing
      && SameBody(seed, r.value.0)
    ensures r.Success? && address.None? ==>
      r.value.0 == AddVlanOnly(GetBuilder(intfs, id).0, vlanId, virtualMapping, virtualResourceName, zoneRef, comment)
    ensures r.Success? && address.Some? ==>
      var seed := GetBuilder(intfs, id).0;
      var name := Composite(seed.interfaceId, vlanId);
      var sub := SubInterface(if engine == SingleFw then SingleNode else Node, name, address, Some(network), Some(1), NoRoles);
      && AddedToExisting(seed, r.value.0, name, sub)
      && AddedAsNew(seed, r.value.0, name, sub, zoneRef, comment)
  {
    var (seed, existing) := GetBuilder(intfs, id);
    if LoadedFromVlan(existing) then Failure(NoVlanList)
    else if address.None? then
      Success((AddVlanOnly(seed, vlanId, virtualMapping, virtualResourceName, zoneRef, comment), existing))
    else if engine == SingleFw then
      Success((AddSniToVlan(seed, address.value, network, vlanId, 1, zoneRef, comment, NoRoles), existing))
    else
      Success((AddNdiToVlan(seed, address.value, network, vlanId, 1, zoneRef, comment, NoRoles), existing))
  }

  /** add_layer3_vlan_interface(3, 100, "1.1.1.1", "1.1.1.0/24") on an
      engine with no interface 3 yields a draft for interface "3" with one
      VLAN "3.100" holding one sub-interface with address 1.1.1.1. */
  lemma Layer3VlanOnFreshInterface(engine: EngineType)
    ensures var r := AddLayer3VlanInterface([], engine, "3", "100", Some("1.1.1.1"), "1.1.1.0/24",
                                            None, None, None, None);
      && r.Success?
      && var (d, existing) := r.value;
      && existing.None?
      && d.interfaceId == "3"
      && d.interfaces == []
      && |d.vlans| == 1
      && d.vlans[0].interfaceId == "3.100"
      && |d.vlans[0].interfaces| == 1
      && d.vlans[0].interfaces[0].address == Some("1.1.1.1")
      && d.vlans[0].interfaces[0].nicid == "3.100"
  {
    var (d, existing) := AddLayer3VlanInterface([], engine, "3", "100", Some("1.1.1.1"), "1.1.1.0/24",
                                                None, None, None, None).value;
    assert Composite("3", "100") == "3.100";
    assert d.vlans[..0] == [];
  }

  /** An engine whose interface 1 has the VLAN 1.100. */
  function VlanEngine(): seq<Interface>
  {
    [Interface("1", [], [Vlan("1.100", [], None, None, None, None)], None, None)]
  }

  /** add_layer3_vlan_interface("1.100", 5) loads the builder from the VLAN
      1.100, which has no VLAN list, so the call raises. */
  lemma Layer3VlanOnVlan(engine: EngineType)
    ensures AddLayer3VlanInterface(VlanEngine(), engine, "1.100", "5", Some("1.1.1.1"), "1.1.1.0/24",
                                   None, None, None, None) == Failure(NoVlanList)
  {
    var intfs := VlanEngine();
    CompositeParts("1", "100");
    assert "1.100" == Composite("1", "100");
    GetComposite(intfs, "1", "100", 0);
  }
}

=== FILE: changes.dfy ===
/** The Interface methods that change an existing interface in place:
    change_single_interface, change_interface_id, change_vlan_id and
    PhysicalInterface.remove_vlan. Each returns the interface body it would
    send back with update(). */
module Changes {
  import opened Wrappers
  import opened Ids
  import opened Fragments
  import opened Vlans
  import Modifier
  import Builder

  /** The sub-interface's own change_interface_id / change_vlan_id: given
      its nicid and the new id, the nicid it ends up with. */
  type Relabel = (string, string) -> string

  // ---------------------------------------------------------------------
  // change_single_interface

  /** `after` is `before` with every sub-interface that is not already on
      `address` moved to that address and to `network`; the sub-interfaces
      already on it are left alone. */
  predicate Readdressed(before: seq<SubInterface>, after: seq<SubInterface>, address: string, network: string)
  {
    && |after| == |before|
    && (forall i :: 0 <= i < |before| && before[i].address == Some(address) ==> after[i] == before[i])
    && (forall i :: 0 <= i < |before| && before[i].address != Some(address) ==>
          after[i] == before[i].(address := Some(address), network := Some(network)))
  }

  /** Some sub-interface of the list is not on the address yet. */
  predicate OffAddress(subs: seq<SubInterface>, address: string)
  {
    exists i :: 0 <= i < |subs| && subs[i].address != Some(address)
  }

  /** The loop of change_single_interface: every sub-interface whose
      address differs gets the new address and network; reports whether
      any did, which is exactly when the list changed. */
  function Readdress(subs: seq<SubInterface>, address: string, network: string): (r: (seq<SubInterface>, bool))
    ensures Readdressed(subs, r.0, address, network)
    ensures forall i :: 0 <= i < |subs| ==> r.0[i].address == Some(address)
    ensures r.1 <==> OffAddress(subs, address)
    ensures r.1 <==> r.0 != subs
  {
    var after := seq(|subs|, i requires 0 <= i < |subs| =>
      if subs[i].address != Some(address)
      then subs[i].(address := Some(address), network := Some(network))
      else subs[i]);
    assert !OffAddress(subs, address) ==> after == subs;
    assert OffAddress(subs, address) ==> after != subs by {
      if OffAddress(subs, address) {
        var i :| 0 <= i < |subs| && subs[i].address != Some(address);
        assert after[i].address != subs[i].address;
      }
    }
    (after, OffAddress(subs, address))
  }

  /** The zone and address change applied to the top-level interface; it
      reports a change exactly when the interface changed. */
  function ChangeTop(itf: Interface, address: string, network: string, zoneRef: Option<string>): (r: (Interface, bool))
    ensures r.0.interfaceId == itf.interfaceId && r.0.vlans == itf.vlans && r.0.comment == itf.comment
    ensures r.0.zoneRef == if Truthy(zoneRef) then zoneRef else itf.zoneRef
    ensures Readdressed(itf.interfaces, r.0.interfaces, address, network)
    ensures r.1 <==> (Truthy(zoneRef) && itf.zoneRef != zoneRef) || OffAddress(itf.interfaces, address)
    ensures r.1 <==> r.0 != itf
  {
    var zoneChanged := Truthy(zoneRef) && itf.zoneRef != zoneRef;
    var zoned := if zoneChanged then itf.(zoneRef := zoneRef) else itf;
    var (subs, readdressed) := Readdress(zoned.interfaces, address, network);
    assert !readdressed ==> zoned.(interfaces := subs) == zoned;
    (zoned.(interfaces := subs), zoneChanged || readdressed)
  }

  /** The zone and address change applied to the VLAN at index k;
      `zoneDiffers` is the zone comparison the caller made. When that
      comparison is the VLAN's own zone against the requested one, the
      change is reported exactly when the interface changed. */
  function ChangeVlanAt(
    itf: Interface, k: nat, address: string, network: string, zoneRef: Option<string>, zoneDiffers: bool)
    : (r: (Interface, bool))
    requires k < |itf.vlans|
    ensures Builder.SameBody(itf, r.0)
    ensures |r.0.vlans| == |itf.vlans|
    ensures forall j :: 0 <= j < |itf.vlans| && j != k ==> r.0.vlans[j] == itf.vlans[j]
    ensures r.0.vlans[k] == itf.vlans[k].(zoneRef := r.0.vlans[k].zoneRef, interfaces := r.0.vlans[k].interfaces)
    ensures r.0.vlans[k].zoneRef == if zoneDiffers then zoneRef else itf.vlans[k].zoneRef
    ensures Readdressed(itf.vlans[k].interfaces, r.0.vlans[k].interfaces, address, network)
    ensures r.1 <==> zoneDiffers || OffAddress(itf.vlans[k].interfaces, address)
    ensures zoneDiffers == (Truthy(zoneRef) && itf.vlans[k].zoneRef != zoneRef) ==> (r.1 <==> r.0 != itf)
  {
    var v := itf.vlans[k];
    var zoned := if zoneDiffers then v.(zoneRef := zoneRef) else v;
    var (subs, readdressed) := Readdress(zoned.interfaces, address, network);
    var after := itf.(vlans := itf.vlans[k := zoned.(interfaces := subs)]);
    assert !zoneDiffers && !readdressed ==> after == itf by {
      if !zoneDiffers && !readdressed {
        assert zoned.(interfaces := subs) == v;
        assert itf.vlans[k := v] == itf.vlans;
      }
    }
    (after, zoneDiffers || readdressed)
  }

  /** Interface.change_single_interface as written: for a VLAN it compares
      the requested zone with the PARENT interface's zone, so a VLAN whose
      parent already has that zone is left in its old zone. */
  function ChangeSingleInterfaceAsWritten(
    itf: Interface, address: string, network: string, zoneRef: Option<string>, vlanId: Option<string>)
    : (r: Result<(Interface, bool), Error>)
    ensures r.Failure? && r.error == ModificationAborted <==> HasVlan(itf) && !Truthy(vlanId)
    ensures Truthy(vlanId) && GetVlan(itf.vlans, vlanId.value).Failure? ==>
      r.Failure? && (r.error == ModificationAborted || r.error == InterfaceNotFound)
    ensures r.Success? ==> |r.value.0.vlans| == |itf.vlans|
    ensures r.Success? && Truthy(vlanId) ==>
      var k := GetVlan(itf.vlans, vlanId.value).value;
      Readdressed(itf.vlans[k].interfaces, r.value.0.vlans[k].interfaces, address, network)
    ensures r.Success? && Truthy(vlanId) && GetVlan(itf.vlans, vlanId.value).Success? && itf.zoneRef == zoneRef ==>
      var k := GetVlan(itf.vlans, vlanId.value).value;
      r.value.0.vlans[k].zoneRef == itf.vlans[k].zoneRef
  {
    if HasVlan(itf) && !Truthy(vlanId) then Failure(ModificationAborted)
    else if Truthy(vlanId) then
      match GetVlan(itf.vlans, vlanId.value)
      case Failure(e) => Failure(e)
      case Success(k) =>
        Success(ChangeVlanAt(itf, k, address, network, zoneRef, Truthy(zoneRef) && itf.zoneRef != zoneRef))
    else Success(ChangeTop(itf, address, network, zoneRef))
  }

  /** Interface.change_single_interface, comparing the zone of the element
      it changes: an interface that has VLANs needs a vlan id, an unknown
      vlan id raises InterfaceNotFound, and otherwise the target (the VLAN,
      or the interface itself) ends up with the requested zone, if one is
      given, and every one of its sub-interfaces with the requested address.
      Nothing else in the interface changes. */
  function ChangeSingleInterface(
    itf: Interface, address: string, network: string, zoneRef: Option<string>, vlanId: Option<string>)
    : (r: Result<(Interface, bool), Error>)
    ensures r.Failure? && r.error == ModificationAborted <==> HasVlan(itf) && !Truthy(vlanId)
    ensures Truthy(vlanId) && GetVlan(itf.vlans, vlanId.value).Failure? ==> r.Failure?
    ensures r.Failure? && r.error != ModificationAborted ==> r.error == InterfaceNotFound
    ensures r.Success? && !Truthy(vlanId) ==>
      && r.value.0.interfaceId == itf.interfaceId && r.value.0.comment == itf.comment
      && r.value.0.vlans == itf.vlans
      && r.value.0.zoneRef == (if Truthy(zoneRef) then zoneRef else itf.zoneRef)
      && Readdressed(itf.interfaces, r.value.0.interfaces, address, network)
    ensures r.Success? ==> |r.value.0.vlans| == |itf.vlans|
    ensures r.Success? && Truthy(vlanId) ==>
      var k := GetVlan(itf.vlans, vlanId.value).value;
      var v, w := itf.vlans[k], r.value.0.vlans[k];
      && Builder.SameBody(itf, r.value.0)
      && (forall j :: 0 <= j < |itf.vlans| && j != k ==> r.value.0.vlans[j] == itf.vlans[j])
      && w == v.(zoneRef := w.zoneRef, interfaces := w.interfaces)
      && w.zoneRef == (if Truthy(zoneRef) then zoneRef else v.zoneRef)
      && Readdressed(v.interfaces, w.interfaces, address, network)
    ensures r.Success? ==> (r.value.1 <==> r.value.0 != itf)
  {
    if HasVlan(itf) && !Truthy(vlanId) then Failure(ModificationAborted)
    else if Truthy(vlanId) then
      match GetVlan(itf.vlans, vlanId.value)
      case Failure(e) => Failure(e)
      case Success(k) =>
        Success(ChangeVlanAt(itf, k, address, network, zoneRef, Truthy(zoneRef) && itf.vlans[k].zoneRef != zoneRef))
    else Success(ChangeTop(itf, address, network, zoneRef))
  }

  /** When the target (the interface, or the VLAN the vlan id names) is
      already in the requested zone, or none is requested, and all of its
      sub-interfaces are already on the address, change_single_interface
      leaves the interface as it is and reports no change. */
  lemma ChangeSingleInterfaceNoChange(
    itf: Interface, address: string, network: string, zoneRef: Option<string>, vlanId: Option<string>)
    requires !Truthy(vlanId) ==>
      && !HasVlan(itf)
      && (!Truthy(zoneRef) || itf.zoneRef == zoneRef)
      && forall i :: 0 <= i < |itf.interfaces| ==> itf.interfaces[i].address == Some(address)
    requires Truthy(vlanId) ==>
      && GetVlan(itf.vlans, vlanId.value).Success?
      && var v := itf.vlans[GetVlan(itf.vlans, vlanId.value).value];
      && (!Truthy(zoneRef) || v.zoneRef == zoneRef)
      && forall i :: 0 <= i < |v.interfaces| ==> v.interfaces[i].address == Some(address)
    ensures ChangeSingleInterface(itf, address, network, zoneRef, vlanId) == Success((itf, false))
  {
    if Truthy(vlanId) {
      var k := GetVlan(itf.vlans, vlanId.value).value;
      var r := ChangeSingleInterface(itf, address, network, zoneRef, vlanId).value.0;
      assert r.vlans[k] == itf.vlans[k];
      assert r.vlans == itf.vlans;
    }
  }

  /** Where the parent's zone and the VLAN's zone are the same (or no VLAN
      is named), the code as written and the corrected version agree. */
  lemma ChangeSingleInterfaceAsWrittenAgrees(
    itf: Interface, address: string, network: string, zoneRef: Option<string>, vlanId: Option<string>)
    requires Truthy(vlanId) && GetVlan(itf.vlans, vlanId.value).Success? ==>
      itf.vlans[GetVlan(itf.vlans, vlanId.value).value].zoneRef == itf.zoneRef
    ensures ChangeSingleInterfaceAsWritten(itf, address, network, zoneRef, vlanId)
         == ChangeSingleInterface(itf, address, network, zoneRef, vlanId)
  {
  }

  /** change_single_interface is idempotent: repeating a successful call
      changes nothing and reports no change. */
  lemma ChangeSingleInterfaceTwice(
    itf: Interface, address: string, network: string, zoneRef: Option<string>, vlanId: Option<string>)
    requires ChangeSingleInterface(itf, address, network, zoneRef, vlanId).Success?
    ensures var once := ChangeSingleInterface(itf, address, network, zoneRef, vlanId).value.0;
      ChangeSingleInterface(once, address, network, zoneRef, vlanId) == Success((once, false))
  {
    var once := ChangeSingleInterface(itf, address, network, zoneRef, vlanId).value.0;
    if Truthy(vlanId) {
      var k := GetVlan(itf.vlans, vlanId.value).value;
      ChangeVlanAtTwice(itf, k, address, network, zoneRef);
      GetVlanSameIds(itf.vlans, once.vlans, vlanId.value);
    } else {
      ChangeTopTwice(itf, address, network, zoneRef);
    }
  }

  /** The VLAN step repeated changes nothing, and the VLAN keeps its
      vlan_id. */
  lemma ChangeVlanAtTwice(itf: Interface, k: nat, address: string, network: string, zoneRef: Option<string>)
    requires k < |itf.vlans|
    ensures var once := ChangeVlanAt(itf, k, address, network, zoneRef, Truthy(zoneRef) && itf.vlans[k].zoneRef != zoneRef).0;
      && ChangeVlanAt(once, k, address, network, zoneRef, Truthy(zoneRef) && once.vlans[k].zoneRef != zoneRef) == (once, false)
      && forall j :: 0 <= j < |itf.vlans| ==> VlanId(once.vlans[j]) == VlanId(itf.vlans[j])
  {
    var once := ChangeVlanAt(itf, k, address, network, zoneRef, Truthy(zoneRef) && itf.vlans[k].zoneRef != zoneRef).0;
    var v, w := itf.vlans[k], once.vlans[k];
    assert |w.interfaces| > 0 ==> w.interfaces[0].kind == v.interfaces[0].kind && w.interfaces[0].nicid == v.interfaces[0].nicid;
    assert VlanId(w) == VlanId(v);
    assert once.vlans[k := w] == once.vlans;
    assert w.(interfaces := w.interfaces) == w;
  }

  /** The top-level step repeated changes nothing. */
  lemma ChangeTopTwice(itf: Interface, address: string, network: string, zoneRef: Option<string>)
    ensures var once := ChangeTop(itf, address, network, zoneRef).0;
      ChangeTop(once, address, network, zoneRef) == (once, false)
  {
    var once := ChangeTop(itf, address, network, zoneRef).0;
    assert once.(interfaces := once.interfaces) == once;
  }

  /** The interface of the discrepancy: its zone is Z, its VLAN 5 has none
      and holds no address. */
  function ZoneExample(): Interface
  {
    Interface("1", [], [Vlan("1.5", [], None, None, None, None)], Some("Z"), None)
  }

  /** Asking for VLAN 5 in zone Z: as written nothing changes and the call
      reports no change, although the VLAN is not in zone Z; comparing the
      VLAN's own zone moves it and reports the change. */
  lemma ParentZoneCompared()
    ensures ChangeSingleInterfaceAsWritten(ZoneExample(), "1.1.1.1", "1.1.1.0/24", Some("Z"), Some("5"))
         == Success((ZoneExample(), false))
    ensures ZoneExample().vlans[0].zoneRef != Some("Z")
    ensures ChangeSingleInterface(ZoneExample(), "1.1.1.1", "1.1.1.0/24", Some("Z"), Some("5"))
         == Success((ZoneExample().(vlans := [ZoneExample().vlans[0].(zoneRef := Some("Z"))]), true))
  {
    var itf := ZoneExample();
    var v := itf.vlans[0];
    assert v.interfaceId == Composite("1", "5");
    CompositeParts("1", "5");
    assert GetVlan(itf.vlans, "5") == Success(0);
    assert Readdress([], "1.1.1.1", "1.1.1.0/24") == ([], false);
    assert itf.vlans[0 := v] == itf.vlans;
    assert itf.vlans[0 := v.(zoneRef := Some("Z"))] == [v.(zoneRef := Some("Z"))];
  }

  /** The other face of the discrepancy: the parent is in zone A, its VLAN
      5 is already in zone Z and holds no address. */
  function ZoneExampleMoved(): Interface
  {
    Interface("1", [], [Vlan("1.5", [], Some("Z"), None, None, None)], Some("A"), None)
  }

  /** Asking for VLAN 5 in zone Z: as written the call reports a change
      although the interface comes back as it was; the corrected version
      reports none. */
  lemma ChangeReportedWithoutChange()
    ensures ChangeSingleInterfaceAsWritten(ZoneExampleMoved(), "1.1.1.1", "1.1.1.0/24", Some("Z"), Some("5"))
         == Success((ZoneExampleMoved(), true))
    ensures ChangeSingleInterface(ZoneExampleMoved(), "1.1.1.1", "1.1.1.0/24", Some("Z"), Some("5"))
         == Success((ZoneExampleMoved(), false))
  {
    var itf := ZoneExampleMoved();
    var v := itf.vlans[0];
    assert v.interfaceId == Composite("1", "5");
    CompositeParts("1", "5");
    assert GetVlan(itf.vlans, "5") == Success(0);
    assert Readdress([], "1.1.1.1", "1.1.1.0/24") == ([], false);
    assert itf.vlans[0 := v] == itf.vlans;
  }

  // ---------------------------------------------------------------------
  // change_interface_id

  /** A VLAN moved under the new interface id: "<if1>.<old tag>", its
      inline sub-interfaces relabelled with the full new id and the others
      with if1. */
  function MoveVlan(v: Vlan, newId: string, relabel: Relabel): (w: Vlan)
    ensures w == v.(interfaceId := w.interfaceId, interfaces := w.interfaces)
    ensures w.interfaceId == Composite(First(newId, PairSep), Last(v.interfaceId, VlanSep))
    ensures Last(w.interfaceId, VlanSep) == Last(v.interfaceId, VlanSep)
    ensures VlanSep !in First(newId, PairSep) ==> First(w.interfaceId, VlanSep) == First(newId, PairSep)
    ensures |w.interfaces| == |v.interfaces|
    ensures forall j :: 0 <= j < |v.interfaces| ==>
      w.interfaces[j] == v.interfaces[j].(nicid := w.interfaces[j].nicid)
    ensures forall j :: 0 <= j < |v.interfaces| ==>
      w.interfaces[j].nicid
        == relabel(v.interfaces[j].nicid, if IsInline(v.interfaces[j].kind) then newId else First(newId, PairSep))
  {
    var if1 := First(newId, PairSep);
    var tag := Last(v.interfaceId, VlanSep);
    CompositeLast(if1, tag);
    assert VlanSep !in if1 ==> First(Composite(if1, tag), VlanSep) == if1 by {
      if VlanSep !in if1 {
        CompositeFirst(if1, tag);
      }
    }
    var subs := seq(|v.interfaces|, j requires 0 <= j < |v.interfaces| =>
      var s := v.interfaces[j];
      s.(nicid := relabel(s.nicid, if IsInline(s.kind) then newId else if1)));
    v.(interfaceId := Composite(if1, tag), interfaces := subs)
  }

  /** Interface.change_interface_id: the interface takes the left half of
      the new id (if1); every VLAN becomes "<if1>.<tag>" with its tag kept;
      inline sub-interfaces are relabelled with the whole new id, the
      interface's other sub-interfaces take if1 as nicid, and only ids
      change. */
  function ChangeInterfaceId(itf: Interface, newId: string, relabel: Relabel): (r: Interface)
    ensures r.interfaceId == First(newId, PairSep) && PairSep !in r.interfaceId
    ensures r.zoneRef == itf.zoneRef && r.comment == itf.comment
    ensures |r.vlans| == |itf.vlans|
    ensures forall i :: 0 <= i < |itf.vlans| ==>
      && r.vlans[i] == itf.vlans[i].(interfaceId := r.vlans[i].interfaceId, interfaces := r.vlans[i].interfaces)
      && r.vlans[i].interfaceId == Composite(r.interfaceId, Last(itf.vlans[i].interfaceId, VlanSep))
      && Last(r.vlans[i].interfaceId, VlanSep) == Last(itf.vlans[i].interfaceId, VlanSep)
      && (VlanSep !in r.interfaceId ==> First(r.vlans[i].interfaceId, VlanSep) == r.interfaceId)
      && |r.vlans[i].interfaces| == |itf.vlans[i].interfaces|
    ensures forall i, j :: 0 <= i < |itf.vlans| && 0 <= j < |itf.vlans[i].interfaces| ==>
      r.vlans[i].interfaces[j] == itf.vlans[i].interfaces[j].(nicid := r.vlans[i].interfaces[j].nicid)
    ensures forall i, j :: 0 <= i < |itf.vlans| && 0 <= j < |itf.vlans[i].interfaces| ==>
      r.vlans[i].interfaces[j].nicid
        == relabel(itf.vlans[i].interfaces[j].nicid, if IsInline(itf.vlans[i].interfaces[j].kind) then newId else r.interfaceId)
    ensures |r.interfaces| == |itf.interfaces|
    ensures forall j :: 0 <= j < |itf.interfaces| ==>
      && r.interfaces[j] == itf.interfaces[j].(nicid := r.interfaces[j].nicid)
      && (!IsInline(itf.interfaces[j].kind) ==> r.interfaces[j].nicid == r.interfaceId)
      && (IsInline(itf.interfaces[j].kind) ==> r.interfaces[j].nicid == relabel(itf.interfaces[j].nicid, newId))
  {
    var if1 := First(newId, PairSep);
    var vlans := seq(|itf.vlans|, i requires 0 <= i < |itf.vlans| => MoveVlan(itf.vlans[i], newId, relabel));
    var subs := seq(|itf.interfaces|, j requires 0 <= j < |itf.interfaces| =>
      var s := itf.interfaces[j];
      if IsInline(s.kind) then s.(nicid := relabel(s.nicid, newId)) else s.(nicid := if1));
    Interface(if1, subs, vlans, itf.zoneRef, itf.comment)
  }

  /** Changing the id and changing it back restores the interface id and
      every VLAN id, provided the VLANs were named "<interface>.<tag>". */
  lemma ChangeInterfaceIdRoundTrip(itf: Interface, newId: string, relabel: Relabel)
    requires PairSep !in itf.interfaceId
    requires forall i :: 0 <= i < |itf.vlans| ==>
      itf.vlans[i].interfaceId == Composite(itf.interfaceId, Last(itf.vlans[i].interfaceId, VlanSep))
    ensures var back := ChangeInterfaceId(ChangeInterfaceId(itf, newId, relabel), itf.interfaceId, relabel);
      && back.interfaceId == itf.interfaceId
      && |back.vlans| == |itf.vlans|
      && forall i :: 0 <= i < |itf.vlans| ==> back.vlans[i].interfaceId == itf.vlans[i].interfaceId
  {
    SplitNoSep(itf.interfaceId, PairSep);
  }

  /** After the change, InterfaceModifier.get finds the interface under the
      left half of its new id. */
  lemma ChangeInterfaceIdFound(intfs: seq<Interface>, k: nat, newId: string, relabel: Relabel)
    requires k < |intfs|
    requires forall j :: 0 <= j < k ==> !Modifier.Stops(intfs[j], First(newId, PairSep))
    ensures var moved := ChangeInterfaceId(intfs[k], newId, relabel);
      Modifier.Get(intfs[k := moved], First(newId, PairSep)) == Success(Whole(moved))
  {
    var moved := ChangeInterfaceId(intfs[k], newId, relabel);
    Modifier.GetById(intfs[k := moved], First(newId, PairSep), k);
  }

  // ---------------------------------------------------------------------
  // change_vlan_id

  /** The VLAN retagged: "<interface part>.<left half of new value>", its inline
      sub-interfaces given the whole new value and the others the left
      half. */
  function RetagVlan(v: Vlan, newTag: string, retag: Relabel): (w: Vlan)
    ensures w == v.(interfaceId := w.interfaceId, interfaces := w.interfaces)
    ensures w.interfaceId == Composite(First(v.interfaceId, VlanSep), First(newTag, PairSep))
    ensures First(w.interfaceId, VlanSep) == First(v.interfaceId, VlanSep)
    ensures VlanSep !in newTag ==> Last(w.interfaceId, VlanSep) == First(newTag, PairSep)
    ensures |w.interfaces| == |v.interfaces|
    ensures forall j :: 0 <= j < |v.interfaces| ==>
      w.interfaces[j] == v.interfaces[j].(nicid := w.interfaces[j].nicid)
    ensures forall j :: 0 <= j < |v.interfaces| ==>
      w.interfaces[j].nicid
        == retag(v.interfaces[j].nicid, if IsInline(v.interfaces[j].kind) then newTag else First(newTag, PairSep))
  {
    var head := First(v.interfaceId, VlanSep);
    var tag := First(newTag, PairSep);
    CompositeFirst(head, tag);
    assert VlanSep !in newTag ==> Last(Composite(head, tag), VlanSep) == tag by {
      if VlanSep !in newTag {
        assert newTag == Join(Split(newTag, PairSep), PairSep);
        assert VlanSep !in tag by {
          if |Split(newTag, PairSep)| > 1 {
            assert newTag == tag + [PairSep] + Join(Split(newTag, PairSep)[1..], PairSep);
          }
        }
        CompositeLast(head, tag);
      }
    }
    var subs := seq(|v.interfaces|, j requires 0 <= j < |v.interfaces| =>
      var s := v.interfaces[j];
      s.(nicid := retag(s.nicid, if IsInline(s.kind) then newTag else tag)));
    v.(interfaceId := Composite(head, tag), interfaces := subs)
  }

  /** Interface.change_vlan_id: get_vlan(original) or InterfaceNotFound;
      the first VLAN reporting `original` is retagged and nothing else in
      the interface changes. */
  function ChangeVlanId(itf: Interface, original: string, newTag: string, retag: Relabel): (r: Result<Interface, Error>)
    ensures r.Failure? <==> GetVlan(itf.vlans, original).Failure?
    ensures r.Failure? ==> r.error == InterfaceNotFound
    ensures r.Success? ==>
      var k := GetVlan(itf.vlans, original).value;
      && Builder.SameBody(itf, r.value)
      && |r.value.vlans| == |itf.vlans|
      && (forall j :: 0 <= j < |itf.vlans| && j != k ==> r.value.vlans[j] == itf.vlans[j])
      && r.value.vlans[k] == RetagVlan(itf.vlans[k], newTag, retag)
  {
    match GetVlan(itf.vlans, original)
    case Failure(e) => Failure(e)
    case Success(k) => Success(itf.(vlans := itf.vlans[k := RetagVlan(itf.vlans[k], newTag, retag)]))
  }

  /** After a plain VLAN is retagged to a single tag, get_vlan finds that
      tag. */
  lemma ChangeVlanIdFindsNew(itf: Interface, original: string, newTag: string, retag: Relabel)
    requires ChangeVlanId(itf, original, newTag, retag).Success?
    requires VlanSep !in newTag && PairSep !in newTag
    requires var v := itf.vlans[GetVlan(itf.vlans, original).value];
      |v.interfaces| == 0 || v.interfaces[0].kind != Inline
    ensures GetVlan(ChangeVlanId(itf, original, newTag, retag).value.vlans, newTag).Success?
  {
    var k := GetVlan(itf.vlans, original).value;
    var r := ChangeVlanId(itf, original, newTag, retag).value;
    SplitNoSep(newTag, PairSep);
    assert VlanId(r.vlans[k]) == newTag;
  }

  /** Retagging a plain VLAN from a to b and back from b to a restores its
      name and leaves every other VLAN as it was. */
  lemma ChangeVlanIdRoundTrip(itf: Interface, k: nat, p: string, a: string, b: string, retag: Relabel)
    requires GetVlan(itf.vlans, a) == Success(k)
    requires itf.vlans[k].interfaceId == Composite(p, a)
    requires VlanSep !in p
    requires VlanSep !in a && PairSep !in a && VlanSep !in b && PairSep !in b
    requires |itf.vlans[k].interfaces| == 0 || itf.vlans[k].interfaces[0].kind != Inline
    requires forall j :: 0 <= j < |itf.vlans| ==> VlanId(itf.vlans[j]) != b
    ensures ChangeVlanId(itf, a, b, retag).Success?
    ensures var once := ChangeVlanId(itf, a, b, retag).value;
      && ChangeVlanId(once, b, a, retag).Success?
      && var twice := ChangeVlanId(once, b, a, retag).value;
      && |twice.vlans| == |itf.vlans|
      && twice.vlans[k].interfaceId == itf.vlans[k].interfaceId
      && forall j :: 0 <= j < |itf.vlans| && j != k ==> twice.vlans[j] == itf.vlans[j]
  {
    ChangeVlanIdOnce(itf, k, p, a, b, retag);
    var once := ChangeVlanId(itf, a, b, retag).value;
    CompositeFirst(p, b);
    SplitNoSep(a, PairSep);
  }

  /** The first half of the round trip: the VLAN is now "<p>.<b>" and is
      the one get_vlan finds for b. */
  lemma ChangeVlanIdOnce(itf: Interface, k: nat, p: string, a: string, b: string, retag: Relabel)
    requires GetVlan(itf.vlans, a) == Success(k)
    requires itf.vlans[k].interfaceId == Composite(p, a)
    requires VlanSep !in p
    requires VlanSep !in b && PairSep !in b
    requires |itf.vlans[k].interfaces| == 0 || itf.vlans[k].interfaces[0].kind != Inline
    requires forall j :: 0 <= j < |itf.vlans| ==> VlanId(itf.vlans[j]) != b
    ensures ChangeVlanId(itf, a, b, retag).Success?
    ensures var once := ChangeVlanId(itf, a, b, retag).value;
      && once.vlans[k].interfaceId == Composite(p, b)
      && GetVlan(once.vlans, b) == Success(k)
  {
    var once := ChangeVlanId(itf, a, b, retag).value;
    CompositeFirst(p, a);
    SplitNoSep(b, PairSep);
    assert once.vlans[k].interfaceId == Composite(p, b);
    CompositeLast(p, b);
    assert VlanId(once.vlans[k]) == b;
    assert forall j :: 0 <= j < |once.vlans| && j != k ==> VlanId(once.vlans[j]) != b;
  }

  // ---------------------------------------------------------------------
  // PhysicalInterface.remove_vlan

  /** PhysicalInterface.remove_vlan as written: the VLAN must be found by
      get_vlan (by its vlan_id), but the builder then drops VLANs named
      "<interface>.<vlan_id>". For an inline VLAN whose pair carries two
      tags, vlan_id is "<tag>-<second tag>" and no VLAN has that name. */
  function RemoveVlanAsWritten(itf: Interface, vlanId: string): (r: Result<Interface, Error>)
    ensures r.Failure? <==> GetVlan(itf.vlans, vlanId).Failure?
    ensures r.Failure? ==> r.error == InterfaceNotFound
    ensures r.Success? ==> r.value == Builder.RemoveVlan(itf, vlanId)
  {
    match GetVlan(itf.vlans, vlanId)
    case Failure(e) => Failure(e)
    case Success(_) => Success(Builder.RemoveVlan(itf, vlanId))
  }

  /** An interface with one inline VLAN "1.10" whose pair "1.10-2.11"
      carries a second tag. */
  function InlinePairExample(): Interface
  {
    var inline := SubInterface(Inline, "1.10-2.11", None, None, None, NoRoles);
    Interface("1", [], [Vlan("1.10", [inline], None, None, None, None)], None, None)
  }

  /** remove_vlan("10-11") on that interface finds the VLAN yet returns the
      interface unchanged, so the VLAN is still there afterwards. */
  lemma RemoveInlinePairVlanAsWritten()
    ensures RemoveVlanAsWritten(InlinePairExample(), "10-11") == Success(InlinePairExample())
    ensures GetVlan(RemoveVlanAsWritten(InlinePairExample(), "10-11").value.vlans, "10-11").Success?
  {
    var itf := InlinePairExample();
    InlinePairVlanId();
    assert GetVlan(itf.vlans, "10-11") == Success(0);
    assert Composite("1", "10-11") != "1.10" by {
      assert |Composite("1", "10-11")| != |"1.10"|;
    }
    assert Builder.Without(itf.vlans, Composite("1", "10-11")) == itf.vlans;
  }

  /** The inline VLAN of that interface reports the tag pair "10-11". */
  lemma InlinePairVlanId()
    ensures VlanId(InlinePairExample().vlans[0]) == "10-11"
  {
    assert "1.10" == Composite("1", "10");
    assert "1.10-2.11" == Composite("1", "10") + [PairSep] + Composite("2", "11");
    InlinePairTags("1", "10", "2", "11");
    assert "10" + [PairSep] + "11" == "10-11";
  }

  /** An inline VLAN "<a>.<t>" whose pair is "<a>.<t>-<b>.<u>" with u
      different from t reports the vlan_id "<t>-<u>". */
  lemma InlinePairTags(left: string, t: string, right: string, u: string)
    requires VlanSep !in t && VlanSep !in u
    requires PairSep !in left && PairSep !in t && PairSep !in right && PairSep !in u
    requires t != u
    ensures forall v: Vlan ::
      (v.interfaceId == Composite(left, t) && |v.interfaces| > 0 && v.interfaces[0].kind == Inline
       && v.interfaces[0].nicid == Composite(left, t) + [PairSep] + Composite(right, u))
      ==> VlanId(v) == t + [PairSep] + u
  {
    var a, b := Composite(left, t), Composite(right, u);
    CompositeLast(left, t);
    CompositeLast(right, u);
    SplitConcat(a, b, PairSep);
    SplitNoSep(a, PairSep);
    SplitNoSep(b, PairSep);
    assert Last(a + [PairSep] + b, PairSep) == b;
  }

  /** An inline VLAN "<a>.<t>" whose pair "<a>.<t>-<b>.<t>" carries the
      same tag on both halves reports just "<t>". */
  lemma InlineSameTag(left: string, t: string, right: string)
    requires VlanSep !in t
    requires PairSep !in left && PairSep !in t && PairSep !in right
    ensures forall v: Vlan ::
      (v.interfaceId == Composite(left, t) && |v.interfaces| > 0 && v.interfaces[0].kind == Inline
       && v.interfaces[0].nicid == Composite(left, t) + [PairSep] + Composite(right, t))
      ==> VlanId(v) == t
  {
    var a, b := Composite(left, t), Composite(right, t);
    CompositeLast(left, t);
    CompositeLast(right, t);
    SplitConcat(a, b, PairSep);
    SplitNoSep(a, PairSep);
    SplitNoSep(b, PairSep);
    assert Last(a + [PairSep] + b, PairSep) == b;
  }

  /** The VLAN "1.10" holding the inline pair "1.10-2.10" reports "10". */
  lemma InlineSameTagExample()
    ensures VlanId(Vlan("1.10", [SubInterface(Inline, "1.10-2.10", None, None, None, NoRoles)],
                        None, None, None, None)) == "10"
  {
    assert "1.10" == Composite("1", "10");
    assert "1.10-2.10" == Composite("1", "10") + [PairSep] + Composite("2", "10");
    InlineSameTag("1", "10", "2");
  }

  /** The VLANs whose vlan_id is not `vlanId`, in their original order. */
  function WithoutTag(vlans: seq<Vlan>, vlanId: string): (r: seq<Vlan>)
    ensures forall v :: v in r <==> v in vlans && VlanId(v) != vlanId
    ensures forall j :: 0 <= j < |r| ==> VlanId(r[j]) != vlanId
    ensures |r| <= |vlans|
    decreases |vlans|
  {
    if |vlans| == 0 then []
    else
      var rest := WithoutTag(vlans[1..], vlanId);
      assert forall v :: v in vlans <==> v == vlans[0] || v in vlans[1..];
      if VlanId(vlans[0]) == vlanId then rest else [vlans[0]] + rest
  }

  /** PhysicalInterface.remove_vlan, dropping the VLANs that report the
      requested vlan_id: InterfaceNotFound when there is none, otherwise
      exactly those VLANs go, the others stay and get_vlan no longer finds
      the tag. */
  function RemoveVlan(itf: Interface, vlanId: string): (r: Result<Interface, Error>)
    ensures r.Failure? <==> GetVlan(itf.vlans, vlanId).Failure?
    ensures r.Failure? ==> r.error == InterfaceNotFound
    ensures r.Success? ==> Builder.SameBody(itf, r.value)
    ensures r.Success? ==> forall v :: v in r.value.vlans <==> v in itf.vlans && VlanId(v) != vlanId
    ensures r.Success? ==> GetVlan(r.value.vlans, vlanId).Failure?
    ensures r.Success? ==> |r.value.vlans| < |itf.vlans|
  {
    match GetVlan(itf.vlans, vlanId)
    case Failure(e) => Failure(e)
    case Success(k) =>
      var kept := WithoutTag(itf.vlans, vlanId);
      assert |kept| < |itf.vlans| by {
        WithoutTagDrops(itf.vlans, vlanId, k);
      }
      Success(itf.(vlans := kept))
  }

  /** A VLAN reporting the tag is dropped, so the list gets shorter. */
  lemma {:induction false} WithoutTagDrops(vlans: seq<Vlan>, vlanId: string, k: nat)
    requires k < |vlans| && VlanId(vlans[k]) == vlanId
    ensures |WithoutTag(vlans, vlanId)| < |vlans|
    decreases |vlans|
  {
    if VlanId(vlans[0]) != vlanId {
      WithoutTagDrops(vlans[1..], vlanId, k - 1);
    }
  }

  /** The fixed remove_vlan removes the inline pair VLAN that the code as
      written keeps. */
  lemma RemoveInlinePairVlan()
    ensures RemoveVlan(InlinePairExample(), "10-11") == Success(InlinePairExample().(vlans := []))
  {
    InlinePairVlanId();
    assert GetVlan(InlinePairExample().vlans, "10-11") == Success(0);
  }

  /** Where every VLAN's vlan_id matches its "<interface>.<tag>" name, the
      fixed remove_vlan and the builder's name filter agree. */
  lemma RemoveVlanAgrees(itf: Interface, vlanId: string)
    requires GetVlan(itf.vlans, vlanId).Success?
    requires forall j :: 0 <= j < |itf.vlans| ==>
      (VlanId(itf.vlans[j]) == vlanId <==> itf.vlans[j].interfaceId == Composite(itf.interfaceId, vlanId))
    ensures RemoveVlan(itf, vlanId) == Success(Builder.RemoveVlan(itf, vlanId))
  {
    AgreeFilters(itf.vlans, vlanId, Composite(itf.interfaceId, vlanId));
  }

  /** The two filters keep the same VLANs when the tag and the name pick out
      the same ones. */
  lemma {:induction false} AgreeFilters(vlans: seq<Vlan>, vlanId: string, name: string)
    requires forall j :: 0 <= j < |vlans| ==> (VlanId(vlans[j]) == vlanId <==> vlans[j].interfaceId == name)
    ensures WithoutTag(vlans, vlanId) == Builder.Without(vlans, name)
    decreases |vlans|
  {
    if |vlans| > 0 {
      AgreeFilters(vlans[1..], vlanId, name);
    }
  }

  /** A second remove_vlan of the same tag raises InterfaceNotFound. */
  lemma RemoveVlanTwice(itf: Interface, vlanId: string)
    requires RemoveVlan(itf, vlanId).Success?
    ensures RemoveVlan(RemoveVlan(itf, vlanId).value, vlanId) == Failure(InterfaceNotFound)
  {
  }
}

=== FILE: fragments.dfy ===
/** The JSON fragments an engine's interface configuration is made of: a
    top-level interface owns sub-interfaces and VLANs, and every VLAN owns
    sub-interfaces of its own. A sub-interface carries the exclusive role
    flags; a flag that is absent from the fragment is None. */
module Fragments {
  import opened Wrappers

  /** The sub-interface variant, the discriminator key of its fragment. */
  datatype Kind =
    | SingleNode      // single_node_interface
    | Node            // node_interface
    | ClusterVirtual  // cluster_virtual_interface
    | Inline          // inline_interface
    | InlineL2Fw      // inline_l2fw_interface
    | InlineIps       // inline_ips_interface
    | Capture         // capture_interface

  /** `isinstance(x, InlineInterface)`: the layer 3 inline variants are
      subclasses of the plain inline interface. */
  predicate IsInline(k: Kind)
  {
    k == Inline || k == InlineL2Fw || k == InlineIps
  }

  /** The roles that at most one sub-interface of an engine should hold. */
  datatype Role =
    | PrimaryMgt
    | BackupMgt
    | PrimaryHeartbeat
    | BackupHeartbeat
    | Outgoing
    | AuthRequest

  /** The role flags of one sub-interface fragment. */
  datatype Roles = Roles(
    primaryMgt: Option<bool>,
    backupMgt: Option<bool>,
    primaryHeartbeat: Option<bool>,
    backupHeartbeat: Option<bool>,
    outgoing: Option<bool>,
    authRequest: Option<bool>)
  {
    /** `getattr(sub_interface, role)`. */
    function Get(r: Role): Option<bool>
    {
      match r
      case PrimaryMgt => primaryMgt
      case BackupMgt => backupMgt
      case PrimaryHeartbeat => primaryHeartbeat
      case BackupHeartbeat => backupHeartbeat
      case Outgoing => outgoing
      case AuthRequest => authRequest
    }

    /** `sub_interface[role] = v`: the role reads back as v and no other
        role changes. */
    function Set(r: Role, v: bool): (rs: Roles)
      ensures rs.Get(r) == Some(v)
      ensures forall q :: q != r ==> rs.Get(q) == Get(q)
    {
      match r
      case PrimaryMgt => this.(primaryMgt := Some(v))
      case BackupMgt => this.(backupMgt := Some(v))
      case PrimaryHeartbeat => this.(primaryHeartbeat := Some(v))
      case BackupHeartbeat => this.(backupHeartbeat := Some(v))
      case Outgoing => this.(outgoing := Some(v))
      case AuthRequest => this.(authRequest := Some(v))
    }

    /** `update(role=True, ...)` for every role in `forced`; the other
        roles keep their value. */
    function Stamp(forced: set<Role>): (rs: Roles)
      ensures forall q :: rs.Get(q) == (if q in forced then Some(true) else Get(q))
    {
      Roles(
        if PrimaryMgt in forced then Some(true) else primaryMgt,
        if BackupMgt in forced then Some(true) else backupMgt,
        if PrimaryHeartbeat in forced then Some(true) else primaryHeartbeat,
        if BackupHeartbeat in forced then Some(true) else backupHeartbeat,
        if Outgoing in forced then Some(true) else outgoing,
        if AuthRequest in forced then Some(true) else authRequest)
    }
  }

  /** A fragment that carries no role key at all. */
  const NoRoles: Roles := Roles(None, None, None, None, None, None)

  /** One sub-interface fragment. `nicid` names the interface (or VLAN, or
      inline pair) it sits on. */
  datatype SubInterface = SubInterface(
    kind: Kind,
    nicid: string,
    address: Option<string>,
    network: Option<string>,
    nodeid: Option<int>,
    roles: Roles)

  /** A VLAN fragment (a PhysicalVlanInterface's data). */
  datatype Vlan = Vlan(
    interfaceId: string,
    interfaces: seq<SubInterface>,
    zoneRef: Option<string>,
    comment: Option<string>,
    virtualMapping: Option<int>,
    virtualResourceName: Option<string>)

  /** A top-level interface body; also the draft an InterfaceBuilder
      accumulates. */
  datatype Interface = Interface(
    interfaceId: string,
    interfaces: seq<SubInterface>,
    vlans: seq<Vlan>,
    zoneRef: Option<string>,
    comment: Option<string>)

  /** What InterfaceModifier.get returns: a top-level interface, or the
      view of one of its VLANs. */
  datatype Target = Whole(itf: Interface) | VlanView(parent: Interface, vlan: Vlan)

  /** The exceptions the modelled operations raise. `NoInterface` stands
      for the attribute error raised when an address is looked up on an
      interface that is None; `NoVlanList` for the attribute error raised
      when a builder loaded from a VLAN, which has no `vlanInterfaces`, is
      asked to add a VLAN. */
  datatype Error = InterfaceNotFound | ModificationAborted | NoInterface | NoVlanList

  /** The engine's `type` string, as far as the modelled code compares it. */
  datatype EngineType = SingleFw | FwCluster | MasterEngine | VirtualFw | Layer2Fw | Ips

  /** Python truthiness of an optional string: neither None nor empty. */
  predicate Truthy(s: Option<string>)
  {
    s.Some? && s.value != ""
  }

  /** `Interface.has_vlan`. */
  predicate HasVlan(itf: Interface)
  {
    |itf.vlans| > 0
  }
}

=== FILE: ids.dfy ===
/** Interface identifiers are strings. A VLAN is named "<interface>.<tag>" and
    an inline pair "<left>-<right>"; the source takes them apart with Python's
    str.split, which this module models together with its inverse, str.join. */
module Ids {

  /** Separator between a physical interface id and its VLAN tag. */
  const VlanSep: char := '.'

  /** Separator between the two halves of an inline interface pair. */
  const PairSep: char := '-'

  /** Python's `c.join(parts)`. */
  function Join(parts: seq<string>, c: char): string
  {
    if |parts| == 0 then ""
    else if |parts| == 1 then parts[0]
    else parts[0] + [c] + Join(parts[1..], c)
  }

  /** Python's `s.split(c)`: never empty, no part contains the separator,
      and joining the parts back gives the original string. */
  function Split(s: string, c: char): (parts: seq<string>)
    ensures |parts| >= 1
    ensures forall i :: 0 <= i < |parts| ==> c !in parts[i]
    ensures Join(parts, c) == s
    decreases |s|
  {
    if |s| == 0 then [""]
    else
      var rest := Split(s[1..], c);
      if s[0] == c then
        assert s == [c] + s[1..];
        [""] + rest
      else
        var head := [s[0]] + rest[0];
        assert c !in head;
        var parts := [head] + rest[1..];
        assert parts[1..] == rest[1..];
        assert Join(parts, c) == s by {
          if |rest| == 1 {
            assert s == [s[0]] + s[1..];
          } else {
            assert Join(rest, c) == rest[0] + [c] + Join(rest[1..], c);
            assert s == [s[0]] + s[1..];
          }
        }
        parts
  }

  /** `s.split(c)[0]`. */
  function First(s: string, c: char): string
  {
    Split(s, c)[0]
  }

  /** `s.split(c)[-1]`. */
  function Last(s: string, c: char): string
  {
    var parts := Split(s, c);
    parts[|parts| - 1]
  }

  /** The VLAN identifier `'{}.{}'.format(interface_id, vlan_id)`. */
  function Composite(interfaceId: string, vlanId: string): string
  {
    interfaceId + [VlanSep] + vlanId
  }

  /** A string without the separator splits into itself alone. */
  lemma {:induction false} SplitNoSep(s: string, c: char)
    requires c !in s
    ensures Split(s, c) == [s]
    decreases |s|
  {
    if |s| > 0 {
      SplitNoSep(s[1..], c);
      assert s == [s[0]] + s[1..];
    }
  }

  /** Splitting at one occurrence of the separator splits both sides
      independently. */
  lemma {:induction false} SplitConcat(a: string, b: string, c: char)
    ensures Split(a + [c] + b, c) == Split(a, c) + Split(b, c)
    decreases |a|
  {
    var s := a + [c] + b;
    if |a| == 0 {
      assert s == [c] + b;
      assert s[1..] == b;
    } else {
      assert s[0] == a[0];
      assert s[1..] == a[1..] + [c] + b;
      SplitConcat(a[1..], b, c);
    }
  }

  /** Joining parts that are free of the separator and splitting again gives
      back the parts: Split is the inverse of Join. */
  lemma {:induction false} SplitJoin(parts: seq<string>, c: char)
    requires |parts| >= 1
    requires forall i :: 0 <= i < |parts| ==> c !in parts[i]
    ensures Split(Join(parts, c), c) == parts
    decreases |parts|
  {
    if |parts| == 1 {
      SplitNoSep(parts[0], c);
    } else {
      SplitJoin(parts[1..], c);
      SplitConcat(parts[0], Join(parts[1..], c), c);
      SplitNoSep(parts[0], c);
      assert parts == [parts[0]] + parts[1..];
    }
  }

  /** The composite VLAN id gives back its two halves under `split('.')`:
      the interface id as the first component and the tag as the last. */
  lemma CompositeParts(interfaceId: string, vlanId: string)
    requires VlanSep !in interfaceId
    requires VlanSep !in vlanId
    ensures Split(Composite(interfaceId, vlanId), VlanSep) == [interfaceId, vlanId]
    ensures First(Composite(interfaceId, vlanId), VlanSep) == interfaceId
    ensures Last(Composite(interfaceId, vlanId), VlanSep) == vlanId
  {
    SplitConcat(interfaceId, vlanId, VlanSep);
    SplitNoSep(interfaceId, VlanSep);
    SplitNoSep(vlanId, VlanSep);
  }

  /** The tag of a composite id survives whatever the interface part is. */
  lemma CompositeLast(interfaceId: string, vlanId: string)
    requires VlanSep !in vlanId
    ensures Last(Composite(interfaceId, vlanId), VlanSep) == vlanId
  {
    SplitConcat(interfaceId, vlanId, VlanSep);
    SplitNoSep(vlanId, VlanSep);
  }

  /** The interface part of a composite id survives whatever the tag is. */
  lemma CompositeFirst(interfaceId: string, vlanId: string)
    requires VlanSep !in interfaceId
    ensures First(Composite(interfaceId, vlanId), VlanSep) == interfaceId
  {
    SplitConcat(interfaceId, vlanId, VlanSep);
    SplitNoSep(interfaceId, VlanSep);
  }
}

=== FILE: modifier.dfy ===
/** InterfaceModifier: all top-level interfaces of one engine, held in memory
    so that an id can be resolved against them and an exclusive role can be
    moved from one sub-interface to another in a single pass. */
module Modifier {
  import opened Wrappers
  import opened Ids
  import opened Fragments
  import opened Vlans

  // ---------------------------------------------------------------------
  // Id resolution (InterfaceModifier.get)
  // ---------------------------------------------------------------------

  /** Some inline sub-interface is named by the id: its nicid is the id, or
      one half of its "<left>-<right>" pair is. */
  predicate InlineHit(subs: seq<SubInterface>, id: string)
  {
    exists j :: 0 <= j < |subs| && IsInline(subs[j].kind)
      && (id == subs[j].nicid || id in Split(subs[j].nicid, PairSep))
  }

  /** The scan in `get` ends at this interface: its id is the id, or the id
      is dotted and names this interface (which has VLANs), or the id is
      plain and names one of its inline sub-interfaces. */
  predicate Stops(itf: Interface, id: string)
  {
    || itf.interfaceId == id
    || (VlanSep in id && itf.interfaceId == First(id, VlanSep) && HasVlan(itf))
    || (VlanSep !in id && InlineHit(itf.interfaces, id))
  }

  /** What `get` answers once its scan has stopped at `itf`: the interface
      itself, or the VLAN named by the part after the last '.', which
      may not exist. */
  function Resolve(itf: Interface, id: string): Result<Target, Error>
    requires Stops(itf, id)
  {
    if itf.interfaceId == id || VlanSep !in id then Success(Whole(itf))
    else
      match GetVlan(itf.vlans, Last(id, VlanSep))
      case Success(k) => Success(VlanView(itf, itf.vlans[k]))
      case Failure(e) => Failure(e)
  }

  /** InterfaceModifier.get(interface_id), the id already converted with
      str(). A whole interface is returned only when its id matches or, for
      a plain id, one of its inline halves does; a VLAN view only for a
      dotted id, on an interface named by the part before the first '.',
      with the VLAN tag after the last '.'. */
  function Get(intfs: seq<Interface>, id: string): (r: Result<Target, Error>)
    ensures r.Failure? ==> r.error == InterfaceNotFound
    ensures r.Success? && r.value.Whole? ==>
      && r.value.itf in intfs
      && (r.value.itf.interfaceId == id || (VlanSep !in id && InlineHit(r.value.itf.interfaces, id)))
    ensures r.Success? && r.value.VlanView? ==>
      && VlanSep in id
      && r.value.parent in intfs
      && r.value.parent.interfaceId == First(id, VlanSep)
      && r.value.vlan in r.value.parent.vlans
      && VlanId(r.value.vlan) == Last(id, VlanSep)
    ensures (forall i :: 0 <= i < |intfs| ==> !Stops(intfs[i], id)) ==> r.Failure?
    decreases |intfs|
  {
    if |intfs| == 0 then Failure(InterfaceNotFound)
    else
      var itf := intfs[0];
      var rest := Get(intfs[1..], id);
      assert forall i :: 0 <= i < |intfs| - 1 ==> intfs[1..][i] == intfs[i + 1];
      assert rest.Success? && rest.value.Whole? ==> rest.value.itf in intfs;
      assert rest.Success? && rest.value.VlanView? ==> rest.value.parent in intfs;
      if itf.interfaceId == id then Success(Whole(itf))
      else if VlanSep in id then
        if itf.interfaceId == First(id, VlanSep) && HasVlan(itf) then
          match GetVlan(itf.vlans, Last(id, VlanSep))
          case Success(k) => Success(VlanView(itf, itf.vlans[k]))
          case Failure(e) => Failure(e)
        else rest
      else if InlineHit(itf.interfaces, id) then Success(Whole(itf))
      else rest
  }

  /** `get` answers at the first interface where its scan stops, and
      nowhere else: interfaces before it are skipped, interfaces after it
      are never looked at (a missing VLAN there raises at once). */
  lemma {:induction false} GetFirstStop(intfs: seq<Interface>, id: string, k: nat)
    requires k < |intfs|
    requires Stops(intfs[k], id)
    requires forall j :: 0 <= j < k ==> !Stops(intfs[j], id)
    ensures Get(intfs, id) == Resolve(intfs[k], id)
    decreases k
  {
    if k > 0 {
      assert !Stops(intfs[0], id);
      GetFirstStop(intfs[1..], id, k - 1);
    }
  }

  /** A plain id, or a dotted one, equal to the id of an interface that no
      earlier interface intercepts resolves to that whole interface. */
  lemma GetById(intfs: seq<Interface>, id: string, k: nat)
    requires k < |intfs|
    requires intfs[k].interfaceId == id
    requires forall j :: 0 <= j < k ==> !Stops(intfs[j], id)
    ensures Get(intfs, id) == Success(Whole(intfs[k]))
  {
    GetFirstStop(intfs, id, k);
  }

  /** A composite id "X.Y" reaching interface X (with VLANs) resolves to the
      first VLAN of X whose vlan_id is Y, and raises InterfaceNotFound when
      X has no such VLAN. */
  lemma GetComposite(intfs: seq<Interface>, x: string, y: string, k: nat)
    requires VlanSep !in x && VlanSep !in y
    requires k < |intfs|
    requires intfs[k].interfaceId == x && HasVlan(intfs[k])
    requires forall j :: 0 <= j < k ==> !Stops(intfs[j], Composite(x, y))
    ensures GetVlan(intfs[k].vlans, y).Success? ==>
      Get(intfs, Composite(x, y)) == Success(VlanView(intfs[k], intfs[k].vlans[GetVlan(intfs[k].vlans, y).value]))
    ensures GetVlan(intfs[k].vlans, y).Failure? ==>
      Get(intfs, Composite(x, y)) == Failure(InterfaceNotFound)
  {
    CompositeParts(x, y);
    assert |Composite(x, y)| > |x|;
    assert Composite(x, y)[|x|] == VlanSep;
    GetFirstStop(intfs, Composite(x, y), k);
  }

  // ---------------------------------------------------------------------
  // Role lookup (InterfaceModifier.find_mgmt_interface)
  // ---------------------------------------------------------------------

  /** Some sub-interface of the list holds the role (its flag is True). */
  predicate HoldsIn(subs: seq<SubInterface>, role: Role)
  {
    exists j :: 0 <= j < |subs| && subs[j].roles.Get(role) == Some(true)
  }

  /** The index of the first VLAN holding the role. */
  function FirstHoldingVlan(vlans: seq<Vlan>, role: Role): (r: Option<nat>)
    ensures r.Some? ==>
      && r.value < |vlans|
      && HoldsIn(vlans[r.value].interfaces, role)
      && forall m :: 0 <= m < r.value ==> !HoldsIn(vlans[m].interfaces, role)
    ensures r.None? <==> forall m :: 0 <= m < |vlans| ==> !HoldsIn(vlans[m].interfaces, role)
    decreases |vlans|
  {
    if |vlans| == 0 then None
    else if HoldsIn(vlans[0].interfaces, role) then Some(0)
    else
      match FirstHoldingVlan(vlans[1..], role)
      case Some(k) => Some(k + 1)
      case None => None
  }

  /** One interface's answer to find_mgmt_interface: its VLANs are looked
      at first (a holder there answers with the VLAN's id), then its own
      sub-interfaces (answering with the interface id). */
  function FindInInterface(itf: Interface, role: Role): (r: Option<string>)
    ensures r.None? <==>
      && !HoldsIn(itf.interfaces, role)
      && forall m :: 0 <= m < |itf.vlans| ==> !HoldsIn(itf.vlans[m].interfaces, role)
    ensures r.Some? ==>
      || (exists m :: 0 <= m < |itf.vlans| && HoldsIn(itf.vlans[m].interfaces, role)
                      && r.value == itf.vlans[m].interfaceId)
      || (HoldsIn(itf.interfaces, role) && r.value == itf.interfaceId)
    ensures HoldsIn(itf.interfaces, role) && (forall m :: 0 <= m < |itf.vlans| ==> !HoldsIn(itf.vlans[m].interfaces, role))
      ==> r == Some(itf.interfaceId)
    ensures forall m :: (&& 0 <= m < |itf.vlans| && HoldsIn(itf.vlans[m].interfaces, role)
                         && forall p :: 0 <= p < m ==> !HoldsIn(itf.vlans[p].interfaces, role)) ==>
      r == Some(itf.vlans[m].interfaceId)
  {
    match FirstHoldingVlan(itf.vlans, role)
    case Some(k) => Some(itf.vlans[k].interfaceId)
    case None => if HoldsIn(itf.interfaces, role) then Some(itf.interfaceId) else None
  }

  /** InterfaceModifier.find_mgmt_interface(role): the id of the first
      interface (or VLAN) that holds the role, None when none does. */
  function FindMgmtInterface(intfs: seq<Interface>, role: Role): (r: Option<string>)
    ensures r.None? <==> forall i :: 0 <= i < |intfs| ==> FindInInterface(intfs[i], role).None?
    ensures r.Some? ==> exists i :: 0 <= i < |intfs| && r == FindInInterface(intfs[i], role)
    decreases |intfs|
  {
    if |intfs| == 0 then None
    else
      match FindInInterface(intfs[0], role)
      case Some(id) => Some(id)
      case None =>
        var rest := FindMgmtInterface(intfs[1..], role);
        assert forall i :: 0 <= i < |intfs| - 1 ==> intfs[1..][i] == intfs[i + 1];
        rest
  }

  /** find_mgmt_interface answers with the first interface that holds the
      role anywhere: with the id of that interface's first holding VLAN if
      one of its VLANs holds the role, and with the interface's own id
      otherwise. */
  lemma FindMgmtFirst(intfs: seq<Interface>, role: Role, k: nat)
    requires k < |intfs|
    requires FindInInterface(intfs[k], role).Some?
    requires forall j :: 0 <= j < k ==> FindInInterface(intfs[j], role).None?
    ensures FindMgmtInterface(intfs, role) == FindInInterface(intfs[k], role)
    ensures forall m :: (&& 0 <= m < |intfs[k].vlans| && HoldsIn(intfs[k].vlans[m].interfaces, role)
                         && forall p :: 0 <= p < m ==> !HoldsIn(intfs[k].vlans[p].interfaces, role)) ==>
      FindMgmtInterface(intfs, role) == Some(intfs[k].vlans[m].interfaceId)
    ensures (forall m :: 0 <= m < |intfs[k].vlans| ==> !HoldsIn(intfs[k].vlans[m].interfaces, role)) ==>
      FindMgmtInterface(intfs, role) == Some(intfs[k].interfaceId)
  {
    FindMgmtAt(intfs, role, k);
  }

  /** The scan stops at the first interface with an answer. */
  lemma {:induction false} FindMgmtAt(intfs: seq<Interface>, role: Role, k: nat)
    requires k < |intfs|
    requires FindInInterface(intfs[k], role).Some?
    requires forall j :: 0 <= j < k ==> FindInInterface(intfs[j], role).None?
    ensures FindMgmtInterface(intfs, role) == FindInInterface(intfs[k], role)
    decreases k
  {
    if k > 0 {
      assert FindInInterface(intfs[0], role).None?;
      FindMgmtAt(intfs[1..], role, k - 1);
    }
  }

  // ---------------------------------------------------------------------
  // Exclusive roles (InterfaceModifier.set_unset)
  // ---------------------------------------------------------------------

  /** `str(None)`: the text a None interface id is compared as. */
  const NoneText: string := "None"

  /** The id set_unset compares nicids against. */
  function TargetText(target: Option<string>): string
  {
    if target.Some? then target.value else NoneText
  }

  /** The sub-interfaces of every VLAN, in order. */
  function VlanSubs(vlans: seq<Vlan>): seq<SubInterface>
    decreases |vlans|
  {
    if |vlans| == 0 then [] else vlans[0].interfaces + VlanSubs(vlans[1..])
  }

  /** The sub-interfaces `all_interfaces.get(address=...)` searches, in its
      order: the VLANs' sub-interfaces first, then the interface's own. A
      VLAN view has no VLANs of its own. */
  function TargetSubs(t: Target): seq<SubInterface>
  {
    match t
    case Whole(itf) => VlanSubs(itf.vlans) + itf.interfaces
    case VlanView(_, v) => v.interfaces
  }

  /** The index of the first sub-interface with the address. */
  function ByAddress(subs: seq<SubInterface>, address: string): (r: Option<nat>)
    ensures r.Some? ==>
      && r.value < |subs|
      && subs[r.value].address == Some(address)
      && forall j :: 0 <= j < r.value ==> subs[j].address != Some(address)
    ensures r.None? <==> forall j :: 0 <= j < |subs| ==> subs[j].address != Some(address)
    decreases |subs|
  {
    if |subs| == 0 then None
    else if subs[0].address == Some(address) then Some(0)
    else
      match ByAddress(subs[1..], address)
      case Some(j) => Some(j + 1)
      case None => None
  }

  /** The network of the sub-interface the address names on the target, if
      there is one. */
  function TargetNetwork(t: Target, address: string): Option<string>
  {
    var subs := TargetSubs(t);
    match ByAddress(subs, address)
    case Some(j) => subs[j].network
    case None => None
  }

  /** The network set_unset matches against: only when an address is given
      and the target interface resolves. */
  function NetworkOf(intfs: seq<Interface>, target: Option<string>, address: Option<string>): Option<string>
  {
    if address.Some? && target.Some? && Get(intfs, target.value).Success? then
      TargetNetwork(Get(intfs, target.value).value, address.value)
    else None
  }

  /** The per-sub-interface step of set_unset. */
  function Touch(s: SubInterface, role: Role, tid: string, net: Option<string>): SubInterface
  {
    if IsInline(s.kind) || s.roles.Get(role).None? then s
    else s.(roles := s.roles.Set(role, s.nicid == tid && (net.None? || s.network == net)))
  }

  function TouchAll(subs: seq<SubInterface>, role: Role, tid: string, net: Option<string>): (r: seq<SubInterface>)
    ensures |r| == |subs|
    ensures forall j :: 0 <= j < |subs| ==> r[j] == Touch(subs[j], role, tid, net)
  {
    seq(|subs|, j requires 0 <= j < |subs| => Touch(subs[j], role, tid, net))
  }

  function TouchVlan(v: Vlan, role: Role, tid: string, net: Option<string>): Vlan
  {
    v.(interfaces := TouchAll(v.interfaces, role, tid, net))
  }

  function TouchInterface(itf: Interface, role: Role, tid: string, net: Option<string>): (r: Interface)
    ensures r.interfaceId == itf.interfaceId && r.zoneRef == itf.zoneRef && r.comment == itf.comment
    ensures r.interfaces == TouchAll(itf.interfaces, role, tid, net)
    ensures |r.vlans| == |itf.vlans|
    ensures forall k :: 0 <= k < |itf.vlans| ==> r.vlans[k] == TouchVlan(itf.vlans[k], role, tid, net)
  {
    itf.(interfaces := TouchAll(itf.interfaces, role, tid, net),
         vlans := seq(|itf.vlans|, k requires 0 <= k < |itf.vlans| => TouchVlan(itf.vlans[k], role, tid, net)))
  }

  function TouchEngine(intfs: seq<Interface>, role: Role, tid: string, net: Option<string>): (r: seq<Interface>)
    ensures |r| == |intfs|
    ensures forall i :: 0 <= i < |intfs| ==> r[i] == TouchInterface(intfs[i], role, tid, net)
  {
    seq(|intfs|, i requires 0 <= i < |intfs| => TouchInterface(intfs[i], role, tid, net))
  }

  /** InterfaceModifier.set_unset(interface_id, attribute, address): move
      the role to the target's sub-interfaces and clear it everywhere else.
      It fails before touching any flag when the target does not resolve,
      when an address is given without a target, or when the address names
      no sub-interface of the target with a (non-empty) network. */
  function SetUnset(intfs: seq<Interface>, target: Option<string>, role: Role, address: Option<string>)
    : (r: Result<seq<Interface>, Error>)
    ensures target.Some? && Get(intfs, target.value).Failure? ==> r == Failure(InterfaceNotFound)
    ensures target.None? && address.Some? ==> r == Failure(NoInterface)
    ensures target.Some? && Get(intfs, target.value).Success? && address.Some? ==>
      (r.Failure? <==> !Truthy(TargetNetwork(Get(intfs, target.value).value, address.value)))
    ensures address.None? ==> (r.Success? <==> (target.None? || Get(intfs, target.value).Success?))
    ensures r.Failure? ==> r.error != ModificationAborted
    ensures target.Some? && r.Failure? ==> r.error == InterfaceNotFound
    ensures r.Success? ==> |r.value| == |intfs|
  {
    if target.Some? && Get(intfs, target.value).Failure? then Failure(InterfaceNotFound)
    else if address.Some? && target.None? then Failure(NoInterface)
    else if address.Some? && !Truthy(NetworkOf(intfs, target, address)) then Failure(InterfaceNotFound)
    else Success(TouchEngine(intfs, role, TargetText(target), NetworkOf(intfs, target, address)))
  }

  /** The outcome set_unset promises for one sub-interface `s` that became
      `t`: only the role's flag may change; Inline sub-interfaces and flags
      that are None are left alone; otherwise a sub-interface on another
      nicid is cleared, one on the target nicid is set when no address was
      given, and with an address it is set exactly when its network is the
      address's network. */
  predicate Rule(s: SubInterface, t: SubInterface, role: Role, tid: string, net: Option<string>)
  {
    && t.kind == s.kind && t.nicid == s.nicid && t.address == s.address
    && t.network == s.network && t.nodeid == s.nodeid
    && (forall q :: q != role ==> t.roles.Get(q) == s.roles.Get(q))
    && (IsInline(s.kind) || s.roles.Get(role).None? ==> t == s)
    && (!IsInline(s.kind) && s.roles.Get(role).Some? ==>
          && (s.nicid != tid ==> t.roles.Get(role) == Some(false))
          && (s.nicid == tid && net.None? ==> t.roles.Get(role) == Some(true))
          && (s.nicid == tid && net.Some? ==> t.roles.Get(role) == Some(s.network == net)))
  }

  /** Every sub-interface of the engine (on an interface or on one of its
      VLANs) went from `before` to `after` by Rule, and nothing else about
      the interfaces changed. */
  predicate RuleEverywhere(before: seq<Interface>, after: seq<Interface>, role: Role, tid: string, net: Option<string>)
  {
    && |after| == |before|
    && (forall i :: 0 <= i < |before| ==>
          && after[i] == before[i].(interfaces := after[i].interfaces, vlans := after[i].vlans)
          && |after[i].interfaces| == |before[i].interfaces|
          && |after[i].vlans| == |before[i].vlans|)
    && (forall i, j :: 0 <= i < |before| && 0 <= j < |before[i].interfaces| ==>
          Rule(before[i].interfaces[j], after[i].interfaces[j], role, tid, net))
    && (forall i, k :: 0 <= i < |before| && 0 <= k < |before[i].vlans| ==>
          && after[i].vlans[k] == before[i].vlans[k].(interfaces := after[i].vlans[k].interfaces)
          && |after[i].vlans[k].interfaces| == |before[i].vlans[k].interfaces|)
    && (forall i, k, j ::
          (0 <= i < |before| && 0 <= k < |before[i].vlans| && 0 <= j < |before[i].vlans[k].interfaces|) ==>
          Rule(before[i].vlans[k].interfaces[j], after[i].vlans[k].interfaces[j], role, tid, net))
  }

  lemma TouchRule(s: SubInterface, role: Role, tid: string, net: Option<string>)
    ensures Rule(s, Touch(s, role, tid, net), role, tid, net)
  {
  }

  /** set_unset's postcondition, sub-interface by sub-interface. */
  lemma SetUnsetRule(intfs: seq<Interface>, target: Option<string>, role: Role, address: Option<string>)
    requires SetUnset(intfs, target, role, address).Success?
    ensures RuleEverywhere(intfs, SetUnset(intfs, target, role, address).value,
                           role, TargetText(target), NetworkOf(intfs, target, address))
  {
    var tid := TargetText(target);
    var net := NetworkOf(intfs, target, address);
    var after := SetUnset(intfs, target, role, address).value;
    assert after == TouchEngine(intfs, role, tid, net);
    forall i, j | 0 <= i < |intfs| && 0 <= j < |intfs[i].interfaces|
      ensures Rule(intfs[i].interfaces[j], after[i].interfaces[j], role, tid, net)
    {
      TouchRule(intfs[i].interfaces[j], role, tid, net);
    }
    forall i, k, j | 0 <= i < |intfs| && 0 <= k < |intfs[i].vlans| && 0 <= j < |intfs[i].vlans[k].interfaces|
      ensures Rule(intfs[i].vlans[k].interfaces[j], after[i].vlans[k].interfaces[j], role, tid, net)
    {
      TouchRule(intfs[i].vlans[k].interfaces[j], role, tid, net);
    }
  }

  /** A sub-interface that set_unset may leave holding the role: it sits on
      the target nicid, or it is an Inline one, which is never touched. */
  predicate MayHold(s: SubInterface, role: Role, tid: string)
  {
    s.roles.Get(role) == Some(true) ==> s.nicid == tid || IsInline(s.kind)
  }

  /** After set_unset every sub-interface holding the role (other than an
      untouched Inline one) sits on the target nicid; with an address, it
      is also on the address's network. The code does not promise that only
      one does. */
  lemma SetUnsetExclusive(intfs: seq<Interface>, target: Option<string>, role: Role, address: Option<string>)
    requires SetUnset(intfs, target, role, address).Success?
    ensures var after := SetUnset(intfs, target, role, address).value;
      && (forall i, j :: 0 <= i < |after| && 0 <= j < |after[i].interfaces| ==>
            MayHold(after[i].interfaces[j], role, TargetText(target)))
      && (forall i, k, j ::
            (0 <= i < |after| && 0 <= k < |after[i].vlans| && 0 <= j < |after[i].vlans[k].interfaces|) ==>
            MayHold(after[i].vlans[k].interfaces[j], role, TargetText(target)))
    ensures address.Some? ==>
      var after := SetUnset(intfs, target, role, address).value;
      forall i, j ::
        (&& 0 <= i < |after| && 0 <= j < |after[i].interfaces|
         && !IsInline(after[i].interfaces[j].kind)
         && after[i].interfaces[j].roles.Get(role) == Some(true)) ==>
        after[i].interfaces[j].network == NetworkOf(intfs, target, address)
    ensures address.Some? ==>
      var after := SetUnset(intfs, target, role, address).value;
      forall i, k, j ::
        (&& 0 <= i < |after| && 0 <= k < |after[i].vlans| && 0 <= j < |after[i].vlans[k].interfaces|
         && !IsInline(after[i].vlans[k].interfaces[j].kind)
         && after[i].vlans[k].interfaces[j].roles.Get(role) == Some(true)) ==>
        after[i].vlans[k].interfaces[j].network == NetworkOf(intfs, target, address)
  {
    SetUnsetRule(intfs, target, role, address);
    var after := SetUnset(intfs, target, role, address).value;
    var tid := TargetText(target);
    var net := NetworkOf(intfs, target, address);
    HoldersOnInterfaces(intfs, after, role, tid, net);
    HoldersOnVlans(intfs, after, role, tid, net);
    if address.Some? {
      HoldersOnNetwork(intfs, after, role, tid, net);
      HoldersOnVlanNetwork(intfs, after, role, tid, net);
    }
  }

  /** Under the rule, a holder on an interface's own list is on the target
      nicid or Inline. */
  lemma HoldersOnInterfaces(before: seq<Interface>, after: seq<Interface>, role: Role, tid: string, net: Option<string>)
    requires RuleEverywhere(before, after, role, tid, net)
    ensures forall i, j :: 0 <= i < |after| && 0 <= j < |after[i].interfaces| ==>
      MayHold(after[i].interfaces[j], role, tid)
  {
    forall i, j | 0 <= i < |after| && 0 <= j < |after[i].interfaces|
      ensures MayHold(after[i].interfaces[j], role, tid)
    {
      assert Rule(before[i].interfaces[j], after[i].interfaces[j], role, tid, net);
    }
  }

  /** Under the rule, a holder inside a VLAN is on the target nicid or
      Inline. */
  lemma HoldersOnVlans(before: seq<Interface>, after: seq<Interface>, role: Role, tid: string, net: Option<string>)
    requires RuleEverywhere(before, after, role, tid, net)
    ensures forall i, k, j ::
      (0 <= i < |after| && 0 <= k < |after[i].vlans| && 0 <= j < |after[i].vlans[k].interfaces|) ==>
      MayHold(after[i].vlans[k].interfaces[j], role, tid)
  {
    forall i, k, j | 0 <= i < |after| && 0 <= k < |after[i].vlans| && 0 <= j < |after[i].vlans[k].interfaces|
      ensures MayHold(after[i].vlans[k].interfaces[j], role, tid)
    {
      assert Rule(before[i].vlans[k].interfaces[j], after[i].vlans[k].interfaces[j], role, tid, net);
    }
  }

  /** Under the rule with a network, a non-Inline holder is on that
      network. */
  lemma HoldersOnNetwork(before: seq<Interface>, after: seq<Interface>, role: Role, tid: string, net: Option<string>)
    requires RuleEverywhere(before, after, role, tid, net)
    requires net.Some?
    ensures forall i, j ::
      (&& 0 <= i < |after| && 0 <= j < |after[i].interfaces|
       && !IsInline(after[i].interfaces[j].kind)
       && after[i].interfaces[j].roles.Get(role) == Some(true)) ==>
      after[i].interfaces[j].network == net
  {
    forall i, j | 0 <= i < |after| && 0 <= j < |after[i].interfaces|
      && !IsInline(after[i].interfaces[j].kind) && after[i].interfaces[j].roles.Get(role) == Some(true)
      ensures after[i].interfaces[j].network == net
    {
      assert Rule(before[i].interfaces[j], after[i].interfaces[j], role, tid, net);
    }
  }

  /** Under the rule with a network, a non-Inline holder inside a VLAN is
      on that network. */
  lemma HoldersOnVlanNetwork(before: seq<Interface>, after: seq<Interface>, role: Role, tid: string, net: Option<string>)
    requires RuleEverywhere(before, after, role, tid, net)
    requires net.Some?
    ensures forall i, k, j ::
      (&& 0 <= i < |after| && 0 <= k < |after[i].vlans| && 0 <= j < |after[i].vlans[k].interfaces|
       && !IsInline(after[i].vlans[k].interfaces[j].kind)
       && after[i].vlans[k].interfaces[j].roles.Get(role) == Some(true)) ==>
      after[i].vlans[k].interfaces[j].network == net
  {
    forall i, k, j | 0 <= i < |after| && 0 <= k < |after[i].vlans| && 0 <= j < |after[i].vlans[k].interfaces|
      && !IsInline(after[i].vlans[k].interfaces[j].kind) && after[i].vlans[k].interfaces[j].roles.Get(role) == Some(true)
      ensures after[i].vlans[k].interfaces[j].network == net
    {
      assert Rule(before[i].vlans[k].interfaces[j], after[i].vlans[k].interfaces[j], role, tid, net);
    }
  }

  /** No sub-interface anywhere is named "None". */
  predicate NoNoneNicid(intfs: seq<Interface>)
  {
    && (forall i, j :: 0 <= i < |intfs| && 0 <= j < |intfs[i].interfaces| ==>
          intfs[i].interfaces[j].nicid != NoneText)
    && (forall i, k, j ::
          (0 <= i < |intfs| && 0 <= k < |intfs[i].vlans| && 0 <= j < |intfs[i].vlans[k].interfaces|) ==>
          intfs[i].vlans[k].interfaces[j].nicid != NoneText)
  }

  /** set_unset(None, role) unsets the role everywhere it can: it succeeds,
      and afterwards only Inline sub-interfaces can still hold the role
      (provided no nicid is literally "None", which str(None) would match). */
  lemma SetUnsetNoneClears(intfs: seq<Interface>, role: Role)
    requires NoNoneNicid(intfs)
    ensures SetUnset(intfs, None, role, None).Success?
    ensures var after := SetUnset(intfs, None, role, None).value;
      && (forall i, j ::
            (&& 0 <= i < |after| && 0 <= j < |after[i].interfaces|
             && after[i].interfaces[j].roles.Get(role) == Some(true)) ==>
            IsInline(after[i].interfaces[j].kind))
      && (forall i, k, j ::
            (&& 0 <= i < |after| && 0 <= k < |after[i].vlans| && 0 <= j < |after[i].vlans[k].interfaces|
             && after[i].vlans[k].interfaces[j].roles.Get(role) == Some(true)) ==>
            IsInline(after[i].vlans[k].interfaces[j].kind))
  {
    SetUnsetExclusive(intfs, None, role, None);
    SetUnsetRule(intfs, None, role, None);
  }

  // ---------------------------------------------------------------------
  // Idempotence of set_unset
  // ---------------------------------------------------------------------

  /** Two sub-interfaces that agree on everything `get` and the address
      lookup read. */
  predicate SameSub(s: SubInterface, t: SubInterface)
  {
    s.kind == t.kind && s.nicid == t.nicid && s.address == t.address && s.network == t.network
  }

  predicate SameSubs(a: seq<SubInterface>, b: seq<SubInterface>)
  {
    |a| == |b| && forall j :: 0 <= j < |a| ==> SameSub(a[j], b[j])
  }

  predicate SameVlan(v: Vlan, w: Vlan)
  {
    v.interfaceId == w.interfaceId && SameSubs(v.interfaces, w.interfaces)
  }

  predicate SameVlans(vs: seq<Vlan>, ws: seq<Vlan>)
  {
    |vs| == |ws| && forall k :: 0 <= k < |vs| ==> SameVlan(vs[k], ws[k])
  }

  predicate SameInterface(x: Interface, y: Interface)
  {
    x.interfaceId == y.interfaceId && SameSubs(x.interfaces, y.interfaces) && SameVlans(x.vlans, y.vlans)
  }

  predicate SameTarget(t: Target, u: Target)
  {
    match t
    case Whole(x) => u.Whole? && SameInterface(x, u.itf)
    case VlanView(x, v) => u.VlanView? && SameInterface(x, u.parent) && SameVlan(v, u.vlan)
  }

  predicate SameEngine(xs: seq<Interface>, ys: seq<Interface>)
  {
    |xs| == |ys| && forall i :: 0 <= i < |xs| ==> SameInterface(xs[i], ys[i])
  }

  lemma SameVlanId(v: Vlan, w: Vlan)
    requires SameVlan(v, w)
    ensures VlanId(v) == VlanId(w)
  {
    if |v.interfaces| > 0 {
      assert SameSub(v.interfaces[0], w.interfaces[0]);
    }
  }

  lemma SameGetVlan(vs: seq<Vlan>, ws: seq<Vlan>, vlanId: string)
    requires SameVlans(vs, ws)
    ensures GetVlan(vs, vlanId) == GetVlan(ws, vlanId)
  {
    forall j | 0 <= j < |vs| ensures VlanId(vs[j]) == VlanId(ws[j]) {
      SameVlanId(vs[j], ws[j]);
    }
    GetVlanSameIds(vs, ws, vlanId);
  }

  lemma SameInlineHit(a: seq<SubInterface>, b: seq<SubInterface>, id: string)
    requires SameSubs(a, b)
    ensures InlineHit(a, id) == InlineHit(b, id)
  {
    if InlineHit(a, id) {
      var j :| 0 <= j < |a| && IsInline(a[j].kind) && (id == a[j].nicid || id in Split(a[j].nicid, PairSep));
      assert SameSub(a[j], b[j]);
    }
    if InlineHit(b, id) {
      var j :| 0 <= j < |b| && IsInline(b[j].kind) && (id == b[j].nicid || id in Split(b[j].nicid, PairSep));
      assert SameSub(a[j], b[j]);
    }
  }

  /** `get` reads only what SameEngine keeps: it resolves the same way on
      both engines, to corresponding interfaces and VLANs. */
  lemma {:induction false} SameGet(xs: seq<Interface>, ys: seq<Interface>, id: string)
    requires SameEngine(xs, ys)
    ensures Get(xs, id).Success? <==> Get(ys, id).Success?
    ensures Get(xs, id).Success? ==> SameTarget(Get(xs, id).value, Get(ys, id).value)
    decreases |xs|
  {
    if |xs| > 0 {
      GetStep(xs, id);
      GetStep(ys, id);
      SameResolve(xs[0], ys[0], id);
      assert SameEngine(xs[1..], ys[1..]) by {
        forall i | 0 <= i < |xs| - 1 ensures SameInterface(xs[1..][i], ys[1..][i]) {
          assert SameInterface(xs[i + 1], ys[i + 1]);
        }
      }
      SameGet(xs[1..], ys[1..], id);
    }
  }

  /** One step of the scan in `get`: answer here if it stops here,
      otherwise go on with the rest. */
  lemma GetStep(xs: seq<Interface>, id: string)
    requires |xs| > 0
    ensures Get(xs, id) == if Stops(xs[0], id) then Resolve(xs[0], id) else Get(xs[1..], id)
  {
  }

  /** Similar interfaces stop the scan alike and resolve alike. */
  lemma SameResolve(x: Interface, y: Interface, id: string)
    requires SameInterface(x, y)
    ensures Stops(x, id) <==> Stops(y, id)
    ensures Stops(x, id) ==> (Resolve(x, id).Success? <==> Resolve(y, id).Success?)
    ensures Stops(x, id) && Resolve(x, id).Success? ==> SameTarget(Resolve(x, id).value, Resolve(y, id).value)
  {
    SameInlineHit(x.interfaces, y.interfaces, id);
    if Stops(x, id) && x.interfaceId != id && VlanSep in id {
      SameGetVlan(x.vlans, y.vlans, Last(id, VlanSep));
      var g := GetVlan(x.vlans, Last(id, VlanSep));
      if g.Success? {
        assert SameVlan(x.vlans[g.value], y.vlans[g.value]);
      }
    }
  }

  lemma {:induction false} SameVlanSubs(vs: seq<Vlan>, ws: seq<Vlan>)
    requires SameVlans(vs, ws)
    ensures SameSubs(VlanSubs(vs), VlanSubs(ws))
    decreases |vs|
  {
    if |vs| > 0 {
      assert SameVlan(vs[0], ws[0]);
      assert SameVlans(vs[1..], ws[1..]) by {
        forall k | 0 <= k < |vs| - 1 ensures SameVlan(vs[1..][k], ws[1..][k]) {
          assert SameVlan(vs[k + 1], ws[k + 1]);
        }
      }
      SameVlanSubs(vs[1..], ws[1..]);
      var a, b := vs[0].interfaces, ws[0].interfaces;
      var ra, rb := VlanSubs(vs[1..]), VlanSubs(ws[1..]);
      forall j | 0 <= j < |a + ra| ensures SameSub((a + ra)[j], (b + rb)[j]) {
        if j < |a| {
          assert SameSub(a[j], b[j]);
        } else {
          assert SameSub(ra[j - |a|], rb[j - |a|]);
        }
      }
    }
  }

  lemma {:induction false} SameByAddress(a: seq<SubInterface>, b: seq<SubInterface>, address: string)
    requires SameSubs(a, b)
    ensures ByAddress(a, address) == ByAddress(b, address)
    decreases |a|
  {
    if |a| > 0 {
      assert SameSub(a[0], b[0]);
      assert SameSubs(a[1..], b[1..]) by {
        forall j | 0 <= j < |a| - 1 ensures SameSub(a[1..][j], b[1..][j]) {
          assert SameSub(a[j + 1], b[j + 1]);
        }
      }
      SameByAddress(a[1..], b[1..], address);
    }
  }

  lemma SameTargetNetwork(t: Target, u: Target, address: string)
    requires SameTarget(t, u)
    ensures TargetNetwork(t, address) == TargetNetwork(u, address)
  {
    var a, b := TargetSubs(t), TargetSubs(u);
    assert SameSubs(a, b) by {
      match t
      case Whole(x) =>
        SameVlanSubs(x.vlans, u.itf.vlans);
        var va, vb := VlanSubs(x.vlans), VlanSubs(u.itf.vlans);
        forall j | 0 <= j < |a| ensures SameSub(a[j], b[j]) {
          if j < |va| {
            assert SameSub(va[j], vb[j]);
          } else {
            assert SameSub(x.interfaces[j - |va|], u.itf.interfaces[j - |va|]);
          }
        }
      case VlanView(_, v) =>
    }
    SameByAddress(a, b, address);
    var r := ByAddress(a, address);
    if r.Some? {
      assert SameSub(a[r.value], b[r.value]);
    }
  }

  /** set_unset changes nothing that `get` or the address lookup read. */
  lemma TouchEngineSame(intfs: seq<Interface>, role: Role, tid: string, net: Option<string>)
    ensures SameEngine(intfs, TouchEngine(intfs, role, tid, net))
  {
    var after := TouchEngine(intfs, role, tid, net);
    forall i | 0 <= i < |intfs| ensures SameInterface(intfs[i], after[i]) {
      var x, y := intfs[i], after[i];
      assert y == TouchInterface(x, role, tid, net);
      assert SameSubs(x.interfaces, y.interfaces);
      forall k | 0 <= k < |x.vlans| ensures SameVlan(x.vlans[k], y.vlans[k]) {
        assert y.vlans[k] == TouchVlan(x.vlans[k], role, tid, net);
      }
    }
  }

  lemma TouchTwice(s: SubInterface, role: Role, tid: string, net: Option<string>)
    ensures Touch(Touch(s, role, tid, net), role, tid, net) == Touch(s, role, tid, net)
  {
    var t := Touch(s, role, tid, net);
    if !IsInline(s.kind) && s.roles.Get(role).Some? {
      var v := s.nicid == tid && (net.None? || s.network == net);
      assert t.roles == s.roles.Set(role, v);
      assert t.roles.Set(role, v) == t.roles by {
        match role
        case PrimaryMgt =>
        case BackupMgt =>
        case PrimaryHeartbeat =>
        case BackupHeartbeat =>
        case Outgoing =>
        case AuthRequest =>
      }
    }
  }

  lemma TouchEngineTwice(intfs: seq<Interface>, role: Role, tid: string, net: Option<string>)
    ensures TouchEngine(TouchEngine(intfs, role, tid, net), role, tid, net) == TouchEngine(intfs, role, tid, net)
  {
    var once := TouchEngine(intfs, role, tid, net);
    var twice := TouchEngine(once, role, tid, net);
    forall i | 0 <= i < |intfs| ensures twice[i] == once[i] {
      var x := once[i];
      forall j | 0 <= j < |x.interfaces|
        ensures TouchAll(x.interfaces, role, tid, net)[j] == x.interfaces[j]
      {
        TouchTwice(intfs[i].interfaces[j], role, tid, net);
      }
      assert TouchAll(x.interfaces, role, tid, net) == x.interfaces;
      forall k | 0 <= k < |x.vlans| ensures TouchVlan(x.vlans[k], role, tid, net) == x.vlans[k] {
        var v := x.vlans[k];
        assert v == TouchVlan(intfs[i].vlans[k], role, tid, net);
        forall j | 0 <= j < |v.interfaces|
          ensures TouchAll(v.interfaces, role, tid, net)[j] == v.interfaces[j]
        {
          TouchTwice(intfs[i].vlans[k].interfaces[j], role, tid, net);
        }
        assert TouchAll(v.interfaces, role, tid, net) == v.interfaces;
      }
      assert TouchInterface(x, role, tid, net).vlans == x.vlans;
    }
  }

  /** Repeating set_unset with the same arguments changes nothing more:
      the target still resolves, the address still names the same network,
      and every flag already has the value the rule gives it. */
  lemma SetUnsetIdempotent(intfs: seq<Interface>, target: Option<string>, role: Role, address: Option<string>)
    requires SetUnset(intfs, target, role, address).Success?
    ensures SetUnset(SetUnset(intfs, target, role, address).value, target, role, address)
         == SetUnset(intfs, target, role, address)
  {
    var tid := TargetText(target);
    var net := NetworkOf(intfs, target, address);
    var after := TouchEngine(intfs, role, tid, net);
    assert SetUnset(intfs, target, role, address).value == after;
    TouchEngineSame(intfs, role, tid, net);
    if target.Some? {
      SameGet(intfs, after, target.value);
      if address.Some? {
        SameTargetNetwork(Get(intfs, target.value).value, Get(after, target.value).value, address.value);
      }
    }
    assert NetworkOf(after, target, address) == net;
    TouchEngineTwice(intfs, role, tid, net);
  }
}

=== FILE: vlans.dfy ===
/** VLAN fragments: how PhysicalVlanInterface.create builds one, how its
    vlan_id property reads the tag back, and how VlanCollection.get_vlan
    finds one by tag. */
module Vlans {
  import opened Wrappers
  import opened Ids
  import opened Fragments

  /** PhysicalVlanInterface.create: a VLAN named "<interface>.<tag>" holding
      the given sub-interface, if any. */
  function CreateVlan(
    interfaceId: string, vlanId: string,
    virtualMapping: Option<int>, virtualResourceName: Option<string>,
    zoneRef: Option<string>, comment: Option<string>,
    sub: Option<SubInterface>): (v: Vlan)
    ensures v.interfaceId == Composite(interfaceId, vlanId)
    ensures v.zoneRef == zoneRef && v.comment == comment
    ensures v.virtualMapping == virtualMapping && v.virtualResourceName == virtualResourceName
    ensures First(v.interfaceId, VlanSep) == First(interfaceId, VlanSep)
    ensures VlanSep !in vlanId ==> Last(v.interfaceId, VlanSep) == vlanId
    ensures sub.None? ==> v.interfaces == []
    ensures sub.Some? ==> v.interfaces == [sub.value]
  {
    SplitConcat(interfaceId, vlanId, VlanSep);
    assert VlanSep !in vlanId ==> Split(vlanId, VlanSep) == [vlanId] by {
      if VlanSep !in vlanId {
        SplitNoSep(vlanId, VlanSep);
      }
    }
    Vlan(Composite(interfaceId, vlanId),
         if sub.Some? then [sub.value] else [],
         zoneRef, comment, virtualMapping, virtualResourceName)
  }

  /** The second tag of an inline VLAN pair: the VLAN part of the right half
      of the inline nicid ("1.10-2.11" gives "11"). */
  function SecondTag(nicid: string): string
  {
    Last(Last(nicid, PairSep), VlanSep)
  }

  /** PhysicalVlanInterface.vlan_id: the tag after the last '.', followed by
      "-<second tag>" when the first sub-interface is a plain inline
      interface whose right half carries a different tag. */
  function VlanId(v: Vlan): string
  {
    var tag := Last(v.interfaceId, VlanSep);
    if |v.interfaces| > 0 && v.interfaces[0].kind == Inline then
      var second := SecondTag(v.interfaces[0].nicid);
      if second != tag then tag + [PairSep] + second else tag
    else tag
  }

  /** What vlan_id reports: never a dot; before its first '-', the tag
      after the VLAN name's last dot (when that tag has no '-'); and exactly
      that tag unless the first sub-interface is a plain inline one. */
  lemma VlanIdParts(v: Vlan)
    ensures VlanSep !in VlanId(v)
    ensures PairSep !in Last(v.interfaceId, VlanSep) ==> First(VlanId(v), PairSep) == Last(v.interfaceId, VlanSep)
    ensures (|v.interfaces| == 0 || v.interfaces[0].kind != Inline) ==> VlanId(v) == Last(v.interfaceId, VlanSep)
  {
    var tag := Last(v.interfaceId, VlanSep);
    if PairSep !in tag {
      SplitNoSep(tag, PairSep);
      if |v.interfaces| > 0 && v.interfaces[0].kind == Inline {
        SplitConcat(tag, SecondTag(v.interfaces[0].nicid), PairSep);
      }
    }
  }

  /** A VLAN built by create reports back the tag it was built with, unless
      it holds a plain inline sub-interface (whose second tag may differ). */
  lemma CreateVlanRoundTrip(
    interfaceId: string, vlanId: string,
    virtualMapping: Option<int>, virtualResourceName: Option<string>,
    zoneRef: Option<string>, comment: Option<string>,
    sub: Option<SubInterface>)
    requires VlanSep !in vlanId
    requires sub.None? || sub.value.kind != Inline
    ensures VlanId(CreateVlan(interfaceId, vlanId, virtualMapping, virtualResourceName,
                              zoneRef, comment, sub)) == vlanId
  {
  }

  /** The vlan_id of every VLAN, in order. */
  function Tags(vlans: seq<Vlan>): (ts: seq<string>)
    ensures |ts| == |vlans|
    ensures forall j :: 0 <= j < |vlans| ==> ts[j] == VlanId(vlans[j])
  {
    seq(|vlans|, j requires 0 <= j < |vlans| => VlanId(vlans[j]))
  }

  /** The index of the first occurrence of `x` in `xs`. */
  function IndexOf(xs: seq<string>, x: string): (r: Option<nat>)
    ensures r.Some? ==> r.value < |xs| && xs[r.value] == x && forall j :: 0 <= j < r.value ==> xs[j] != x
    ensures r.None? <==> forall j :: 0 <= j < |xs| ==> xs[j] != x
    decreases |xs|
  {
    if |xs| == 0 then None
    else if xs[0] == x then Some(0)
    else
      match IndexOf(xs[1..], x)
      case Some(k) => Some(k + 1)
      case None => None
  }

  /** VlanCollection.get_vlan(vlan_id): the index of the first VLAN whose
      vlan_id equals the argument, or InterfaceNotFound when none does. */
  function GetVlan(vlans: seq<Vlan>, vlanId: string): (r: Result<nat, Error>)
    ensures r.Success? ==>
      && r.value < |vlans|
      && VlanId(vlans[r.value]) == vlanId
      && forall j :: 0 <= j < r.value ==> VlanId(vlans[j]) != vlanId
    ensures r.Failure? <==> forall j :: 0 <= j < |vlans| ==> VlanId(vlans[j]) != vlanId
    ensures r.Failure? ==> r.error == InterfaceNotFound
  {
    var ts := Tags(vlans);
    match IndexOf(ts, vlanId)
    case Some(k) => Success(k)
    case None =>
      assert forall j :: 0 <= j < |vlans| ==> VlanId(vlans[j]) == ts[j];
      Failure(InterfaceNotFound)
  }

  /** Two VLAN lists that report the same vlan_id position by position are
      searched alike by get_vlan. */
  lemma GetVlanSameIds(vs: seq<Vlan>, ws: seq<Vlan>, vlanId: string)
    requires |vs| == |ws|
    requires forall j :: 0 <= j < |vs| ==> VlanId(vs[j]) == VlanId(ws[j])
    ensures GetVlan(vs, vlanId) == GetVlan(ws, vlanId)
  {
    assert Tags(vs) == Tags(ws);
  }
}

=== FILE: wrappers.dfy ===
/** The wrappers used by every other module: an optional value (a Python
    attribute that may be None) and the result of an operation that can
    raise. Callers match on them; they do not support `:-`. */
module Wrappers {

  /** A value that may be absent, as a JSON key whose value is None. */
  datatype Option<+T> = None | Some(value: T)

  /** The outcome of an operation that either returns a value or raises. */
  datatype Result<+T, +E> = Success(value: T) | Failure(error: E)
}
